=== FILE: README.md ===
# A model of a retrieval-augmented chat backend

The backend is a Flask application. A user signs in through Clerk and sends
requests with a Bearer token. Each user has their own workspace:

- `session_uploads/<email>/` holds the raw uploads, `chat_history.json` and `meta.json`;
- `chroma_sessions/<email>/` is the user's Chroma vector index;
- `vectorstore/` is the global index, built from `DOCS2PARSE/`.

An upload saves the file and checks a 100 MiB quota on the user's index. It then
drops that index and rebuilds it from the new file alone, and updates
`meta.json`. A chat query is answered from the user's index when one exists and
opens. It falls back to the global index when the answer is blank or came
without source documents. Both sides of every exchange are logged to the
history.

The model covers these modules, one Dafny module per Python file:

| Dafny file | models | form |
|---|---|---|
| `text.dfy` | the string operations the code relies on: `str.strip` with Python's whitespace set, `sep.join`, `lower`, `startswith`/`endswith`, `os.path.join` | functions and lemmas |
| `file_utils.dfy` | `file_utils.py`: extension dispatch and the PDF, DOCX, XLSX, CSV, text and image extractors | functions; methods with loops where the source loops (PDF pages and images, CSV rows, XLSX sheets and rows) |
| `storage.dfy` | the directories the backend reads and writes | a datatype `Fs` for the state as a value, and a class `Disk` changed in place |
| `session_handler.dfy` | `session_handler.py`: the quota walk, the upload pipeline, the `meta.json` upsert, the choice of store | methods on `Disk`, each proved equal to a function on `Fs` |
| `global_loader.dfy` | `global_loader.py`: the bootstrap of the global index | as for `session_handler.dfy` |
| `chat_logger.dfy` | `chat_logger.py`: the history file, the session list, the removal of user data | as for `session_handler.dfy` |
| `auth.dfy` | `auth.py`: the JSON Web Key lookup, the big-endian key integers and the decorator's guards | functions and lemmas; the decorator is a method that sets `request.email` |
| `app.dfy` | `app.py`: the `/upload`, `/chat`, `/history`, `/sessions`, `/files` and `/clear` views | each view is a function and a method on `Disk` |

Foreign calls are parameters of the operations that make them: Chroma, the
embeddings, the language-model chains, the format libraries, Tesseract,
`jwt`, base64 and JSON. Each such parameter holds the call's outcome, or
`None` where the call raises. So a `RawFile` carries what each decoder would
deliver for an uploaded file's bytes.

In `Disk`, every method that changes the filesystem is proved to produce
`d.State()` equal to a function of the old state. The properties are then
lemmas about those functions.

Where a reader might expect otherwise, the model follows the code:

- `meta.json`'s `files` is a list, not a set. `UpsertMeta` appends a new name
  and keeps the earlier order.
- `/clear` and `clear_all_user_data` remove `vectorstore/<email>`, not the
  user's index `chroma_sessions/<email>`. After a clear, the size the quota
  counts is unchanged (`ClearKeepsQuota`). The next query can still be answered
  from the forgotten files' index (`StaleIndexAfterClear`).
- A user without an index is served by the global store through the user
  chain. The reply's `fallback` flag is then false whenever that chain's answer
  is not blank and comes with sources (`FallbackIgnoresStore`).
- A PDF that fails part-way keeps the pages read before the failure.
- Once the header has the "Bearer " prefix and the token verifies to a payload
  with an email, a missing or unreadable `whitelist.json` gives 500, not 401 or
  403 (`Auth.Guards`, `Auth.GuardCodes`).
- The fallback chain's whole output dict (query and result) is what the reply
  and the history carry, not a string.

## Model

| member | source | states |
|---|---|---|
| Text.IsSpace | file_utils.py:24 | defines Python's whitespace set for `str.strip`: space, tab, newline, vertical tab, form feed, carriage return, the separators U+001C-U+001F, U+0085, U+00A0 and the other Unicode spaces |
| Text.Strip | file_utils.py:24 | defines `str.strip()` as leading, then trailing, Python whitespace removed; what it means is stated by the five `Strip…` lemmas below |
| Text.StripEmptyIffBlank | file_utils.py:24 | `text.strip()` is empty exactly when every character is Python whitespace, so `if text.strip()` tests for a non-blank text |
| Text.StripIsInfix | file_utils.py:46 | `strip()` returns the contiguous part of its input that starts after the leading whitespace |
| Text.StripRemovesBlank | file_utils.py:58 | what `strip()` removes before and after the part it keeps is whitespace only |
| Text.StripEnds | file_utils.py:68 | a non-empty stripped text starts and ends with a non-whitespace character |
| Text.StripIdempotent | file_utils.py:88 | stripping a stripped text changes nothing |
| Text.JoinBlank | file_utils.py:33-34 | a joined text is blank exactly when every part is blank, and the separator is blank too when there are two parts or more |
| Text.Join | file_utils.py:33 | defines `sep.join`: the parts in order with the separator between each two; `JoinBlank` states when the result is blank |
| Text.Lower | file_utils.py:74 | `lower()` keeps the length and lowers each ASCII letter in place |
| Text.StartsWith | auth.py:71 | defines `startswith`: the text begins with the prefix |
| Text.EndsWith | app.py:172 | defines `endswith`: the text ends with the suffix |
| Text.PathJoin | session_handler.py:29 | `os.path.join` gives an absolute second component unchanged; otherwise it is the first component, a '/' unless the first is empty or already ends in one, and the second |
| FileUtils.Ext | file_utils.py:74 | `splitext` gives "" or a suffix of the path that starts with its one dot and has no '/' |
| FileUtils.ExtNonEmptyIff | file_utils.py:74 | the extension is non-empty exactly when the last path component has a dot after some character other than a dot: such a dot always gives an extension, and an extension is always preceded in its component by such a character |
| FileUtils.FormatOf | file_utils.py:76-95 | the extractor is chosen on the lower-cased extension, each way round: .pdf is PDF, .docx DOCX, .xlsx XLSX, .csv CSV, .txt and .md plain text, .png, .jpg, .jpeg and .webp image; any other extension selects no extractor |
| FileUtils.StrippedDocs | file_utils.py:84-93 | the text, markdown and image paths: one document holding the stripped text with the path as source, or none when the text is blank or the read raised |
| FileUtils.ExtractPdf | file_utils.py:12-28 | the loops over pages and images yield, per non-blank page, the page text with each image's OCR text appended after a newline, numbered from 0; pages read before a failure are kept |
| FileUtils.ImageSuffix | file_utils.py:18-23 | defines what a page's images add: each OCR text after a newline, in image order |
| FileUtils.PageText | file_utils.py:17-23 | defines a page's text as the page's own text followed by its images' OCR texts |
| FileUtils.PdfDocs | file_utils.py:12-28 | defines the PDF result: per page, the page text with each OCR text appended after a newline, kept unstripped when not blank and numbered from 0; `ExtractPdf` computes it and the three `PdfDocs…` lemmas state its meaning |
| FileUtils.PdfDocsSound | file_utils.py:16-25 | every PDF document is an input page with its OCR text appended, is not blank, and names the path |
| FileUtils.PdfDocsOrdered | file_utils.py:16-25 | PDF documents come in strictly increasing page order |
| FileUtils.PdfDocsComplete | file_utils.py:24-25 | every page whose text is not blank gives a document for that page |
| FileUtils.DocxDocs | file_utils.py:30-37 | a DOCX file gives no document exactly when it cannot be read or its paragraphs joined by newlines are blank; otherwise the one document is that joined text, unstripped, with the path as source and no page |
| FileUtils.DocxDocIffSomeText | file_utils.py:33-34 | a DOCX file gives a document exactly when some paragraph is not blank |
| FileUtils.ExtractCsv | file_utils.py:51-61 | the row loop joins each row's fields with " \| " and ends it with a newline; the result is the stripped text as one document, or none |
| FileUtils.CsvText | file_utils.py:56-57 | defines the CSV text: each row's fields joined by " \| " and ended by a newline, rows in order; `ExtractCsv` computes it and `CsvDocsEmptyIff` states when it is blank |
| FileUtils.CsvDocs | file_utils.py:51-61 | defines the CSV result: none when the read raises, otherwise the stripped `CsvText` as one document when it is not blank; `CsvDocsEmptyIff` states it |
| FileUtils.CsvDocsEmptyIff | file_utils.py:56-58 | a CSV file gives no document exactly when every row has at most one field and that field is blank; otherwise the one document holds the stripped text |
| FileUtils.NatToString | file_utils.py:45 | `str()` of a non-negative int is a non-empty string of decimal digits whose value (`DigitsValue`) is the number, with no leading zero except in "0" |
| FileUtils.IntToString | file_utils.py:45 | defines `str()` of an int: a minus sign and the digits of its magnitude when negative, the digits otherwise |
| FileUtils.CellText | file_utils.py:45 | defines a cell's text: its string form, and "" for every falsy value (no value, 0, False, "", 0.0) |
| FileUtils.RowTexts | file_utils.py:45 | defines a row's cell texts, one per cell in order |
| FileUtils.SheetText | file_utils.py:44-45 | defines a sheet's text: per row, a newline and the cell texts joined by " \| "; `SheetTextBlank` states when it is blank |
| FileUtils.AppendSheet | file_utils.py:44-45 | the row loop adds a newline and the " \| "-joined cell texts per row, with falsy cells as "" |
| FileUtils.ExtractXlsx | file_utils.py:39-49 | the sheet loop builds the text of every sheet in workbook order; the result is its stripped text as one document, or none |
| FileUtils.XlsxText | file_utils.py:43-45 | defines the workbook text: every sheet's rows, each after a newline, sheets in workbook order; `ExtractXlsx` computes it and `SheetTextBlank` and `XlsxDocsEmptyIff` state when it is blank |
| FileUtils.XlsxDocs | file_utils.py:39-49 | defines the workbook result: none when the read raises, otherwise the stripped `XlsxText` as one document when it is not blank; `XlsxDocsEmptyIff` states it |
| FileUtils.SheetTextBlank | file_utils.py:45 | a sheet's text is blank exactly when every row renders as at most one blank cell |
| FileUtils.XlsxDocsEmptyIff | file_utils.py:46 | a workbook gives no document exactly when every sheet is blank in that sense; otherwise one document with the stripped text |
| FileUtils.ParseFile | file_utils.py:73-95 | `parse_file` returns the documents of the extractor its extension selects, and never raises |
| FileUtils.Parse | file_utils.py:73-95 | defines `parse_file` as the extractor `FormatOf` selects; `ParseFile` computes it and `ParseSound` states its meaning |
| FileUtils.Extract | file_utils.py:76-95 | defines the dispatch from format to extractor; `ExtractSound` and `ExtractSingle` state its meaning |
| FileUtils.ExtractSound | file_utils.py:76-95 | whatever the format, every document names the path and is not blank; an unsupported format gives none |
| FileUtils.ExtractSingle | file_utils.py:30-93 | every format other than PDF gives at most one document, without a page number |
| FileUtils.ParseSound | file_utils.py:73-95 | every document of `parse_file` names the path and is not blank; an unsupported extension gives none |
| Storage.EnsureDir | session_handler.py:30 | `makedirs(exist_ok=True)` creates the user directory when missing, empty, and changes nothing else |
| Storage.PutBlob | session_handler.py:32-33 | writing a file replaces that one entry of the user directory and changes nothing else |
| Storage.Listed | session_handler.py:83 | defines a non-empty directory listing for an index tree: some file or subdirectory at its root |
| Storage.Disk.MakeUserDir | chat_logger.py:13 | the in-place directory creation is `EnsureDir` of the old state |
| Storage.Disk.WriteFile | chat_logger.py:22-23 | the in-place file write is `PutBlob` of the old state |
| SessionHandler.FilesSize | session_handler.py:21-24 | defines a directory's total: the sizes of its regular files; `FilesSizeAppend` and `FileCounted` state it |
| SessionHandler.WalkSize | session_handler.py:20-24 | defines the walk's total: the sum of every visited directory's total |
| SessionHandler.VectorStoreSize | session_handler.py:16-25 | defines the quota size: the walk total of `chroma_sessions/<email>`, 0 without it; `GetVectorstoreSize` computes it |
| SessionHandler.AddFilesSize | session_handler.py:21-24 | the inner loop adds the sizes of one directory's regular files to the running total |
| SessionHandler.GetVectorstoreSize | session_handler.py:16-25 | the walk totals the regular files of every directory under `chroma_sessions/<email>`, and gives 0 without one |
| SessionHandler.FilesSizeAppend | session_handler.py:21-24 | the sizes of two lists of files add up |
| SessionHandler.FileCounted | session_handler.py:23-24 | every regular file's size is part of its directory's total |
| SessionHandler.DefaultMeta | session_handler.py:56-60 | defines the default record: no files, no `last_used`, the title "Untitled Chat" |
| SessionHandler.UpsertMeta | session_handler.py:66-69 | the file name is listed after the update, appended only when absent; earlier names keep their order; the title is kept; `last_used` is the upload time |
| SessionHandler.UpsertMetaNoDuplicates | session_handler.py:66-67 | a list of file names without duplicates stays without duplicates |
| SessionHandler.NewMeta | session_handler.py:54-69 | defines the record an upload writes: the upsert of the stored record, of the defaults when there is none, and no record when the stored entry is not one; `WriteMeta` and `UploadMeta` state its use |
| SessionHandler.WriteMeta | session_handler.py:53-74 | the meta step writes only `meta.json` of the user directory: the upsert of the stored record, or of the defaults when there is none; nothing when reading it raises |
| SessionHandler.UpdateMeta | session_handler.py:53-74 | the in-place meta step is `WriteMeta` of the old state: defaults when absent, upsert, `last_used`, write; failures are swallowed |
| SessionHandler.Upload | session_handler.py:27-76 | defines `handle_file_upload` on the filesystem: save, quota guard, rebuild, meta step, result or error; stated by `UploadSucceeds`, `UploadQuotaGuard`, `UploadRebuildsFromNewFileOnly` and `UploadMeta` |
| SessionHandler.UploadPath | session_handler.py:29-32 | defines where an upload is saved: `session_uploads/<email>/<filename>` |
| SessionHandler.ReplaceIndex | session_handler.py:43-51 | the user's old index is removed; the new one, when the build succeeds, holds exactly the given documents with chunk size 800 and overlap 200; other users' indexes are untouched |
| SessionHandler.UploadSucceeds | session_handler.py:27-76 | once the file is saved and the quota passes, an upload is save, rebuild, meta update, and returns (email, filename) |
| SessionHandler.UploadQuotaGuard | session_handler.py:32-40 | an upload is refused with the quota message exactly when the file was saved and the user's index already holds at least 100 MiB; a failed save is the only other error; on either error no index changes, and after a quota refusal the raw file stays |
| SessionHandler.UploadRebuildsFromNewFileOnly | session_handler.py:42-51 | after the guard passes, the user's index exists exactly when the build succeeded; it then holds only the new file's documents; other indexes are untouched; the raw file is on disk |
| SessionHandler.UploadMeta | session_handler.py:54-72 | after a successful upload, `meta.json` is the upsert of the record that was there, or of the defaults when there was none |
| SessionHandler.HandleFileUpload | session_handler.py:27-76 | the in-place upload pipeline is `Upload` of the old state, with the same result |
| SessionHandler.ChooseStore | session_handler.py:82-85 | defines the store decision; `ChooseStoreSpec` states it both ways |
| SessionHandler.LoadOrCreate | session_handler.py:78-90 | defines the choice and, for the global store, what the global loader does; `LoadOrCreateSessionVectorstore` computes it and `App.LoadKeepsHistory` states that it never touches the upload directories |
| SessionHandler.ChooseStoreSpec | session_handler.py:82-85 | the user's own store is chosen exactly when the upload directory and the index directory both exist and are non-empty and the index opens |
| SessionHandler.LoadOrCreateSessionVectorstore | session_handler.py:78-90 | the in-place store choice is `LoadOrCreate`: the user store, or the global loader otherwise |
| GlobalLoader.DocPath | global_loader.py:15 | defines the path a listed name is parsed under: `DOCS2PARSE/<name>` |
| GlobalLoader.CollectDocuments | global_loader.py:16-28 | the loop collects the documents of the listed files, file after file, and skips a file that parses to nothing |
| GlobalLoader.Collected | global_loader.py:16-28 | defines the collected documents as each listed file's parse, concatenated in listing order; `CollectedAppend`, `SkippedFileContributesNothing` and `CollectedSound` state its meaning |
| GlobalLoader.CollectedAppend | global_loader.py:18-23 | collecting two listings in turn is collecting their concatenation |
| GlobalLoader.SkippedFileContributesNothing | global_loader.py:22-26 | a file that parses to no documents contributes nothing, wherever it is listed |
| GlobalLoader.CollectedSound | global_loader.py:15-23 | every collected document comes from a listed file in `DOCS2PARSE` and is not blank |
| GlobalLoader.NeedsRebuild | global_loader.py:13 | defines the rebuild condition: `vectorstore` is missing or lists nothing |
| GlobalLoader.LoadGlobalSpec | global_loader.py:12-38 | the loader reopens exactly when `vectorstore` exists and is non-empty, and then changes nothing; a needed rebuild gives `Rebuilt` exactly when the build succeeds, with the collected documents, chunk size 800 and overlap 200, and changes nothing but `vectorstore`; it fails exactly when the build raises, and then leaves everything as it was |
| GlobalLoader.LoadGlobal | global_loader.py:12-38 | defines the loader's decision and its effect on `vectorstore`; `LoadGlobalSpec` states each of its three outcomes in both directions |
| GlobalLoader.LoadGlobalVectorstore | global_loader.py:12-38 | the in-place loader is `LoadGlobal` of the old state |
| ChatLogger.GetHistoryFile | chat_logger.py:8-9 | the history path is `session_uploads/<email>/chat_history.json` |
| ChatLogger.GetHistory | chat_logger.py:25-30 | the history is [] without a file, the stored list when the file holds a history list, and an error when it holds a raw upload or a meta record; a file holding some other JSON value is not modelled |
| ChatLogger.Append | chat_logger.py:11-23 | defines `append_message` on the filesystem; `AppendExtends` and `AppendFrame` state what it changes |
| ChatLogger.AppendExtends | chat_logger.py:11-23 | an append succeeds exactly when the history reads; the history then becomes the old one followed by exactly the new entry |
| ChatLogger.AppendFrame | chat_logger.py:11-23 | an append creates the user directory (and `session_uploads`) and changes nothing but the history file: indexes, `vectorstore`, `DOCS2PARSE`, other users' directories and the user's other files are kept |
| ChatLogger.AppendMessage | chat_logger.py:11-23 | the in-place append is `Append` of the old state |
| ChatLogger.AllSessions | chat_logger.py:32-33 | the sessions are the user directories, none before `session_uploads` exists |
| ChatLogger.RemoveGlobalEntry | chat_logger.py:41-44 | `vectorstore/<email>` is removed when the global directory exists |
| ChatLogger.ClearAll | chat_logger.py:35-44 | defines `clear_all_user_data` on the filesystem; `ClearAllSpec` states what it removes and keeps |
| ChatLogger.ClearAllSpec | chat_logger.py:35-44 | clearing removes the user's directory and `vectorstore/<email>`, keeps every other user's directory with its contents, keeps `DOCS2PARSE` and whether `session_uploads` exists, is idempotent, and leaves every index in `chroma_sessions` in place |
| ChatLogger.ClearAllUserData | chat_logger.py:35-44 | the in-place clear is `ClearAll` of the old state |
| Auth.FromBytesBig | auth.py:24-25 | `int.from_bytes(..., "big")` of k bytes is below 256^k |
| Auth.FromToBytes | auth.py:24-25 | decoding the k-byte big-endian encoding of a number below 256^k gives the number back |
| Auth.ToFromBytes | auth.py:24-25 | encoding a byte string's value in as many bytes gives the string back, so the value determines the bytes |
| Auth.LeadingZero | auth.py:24-25 | leading zero bytes do not change the value of a key member |
| Auth.KeyNumber | auth.py:23-25 | a key member gives a number exactly when it is present and base64url-decodes after "==" is appended; the number is the big-endian value of those bytes |
| Auth.SelectKeySound | auth.py:45 | the key selected for a kid is the first one whose kid matches, and every key before it has a different kid |
| Auth.SelectKeyComplete | auth.py:45 | such a key is always selected when every key before it has a different kid |
| Auth.SelectKey | auth.py:45 | a selected key is one of the given keys and carries the kid sought; `SelectKeySound` and `SelectKeyComplete` show it is the first such key |
| Auth.VerifyToken | auth.py:35-62 | defines `verify_clerk_token`: decode to text, header kid, key lookup, n and e, signature check, every failure None; `VerifyUsesFirstMatchingKey` and `VerifyTokenComplete` state it in both directions |
| Auth.VerifyUsesFirstMatchingKey | auth.py:35-62 | a verified token was decoded with the first key whose kid is the token header's, using that key's n and e as big-endian integers |
| Auth.VerifyTokenComplete | auth.py:35-62 | a token whose text decodes, whose header has a kid, and whose first key with that kid has base64url-decodable n and e, is verified by the signature check with that key's big-endian n and e |
| Auth.ExtractToken | auth.py:71-75 | a token is extracted exactly when the header starts with "Bearer " |
| Auth.TokenAfterPrefix | auth.py:75 | the token is the header after "Bearer ", without surrounding whitespace |
| Auth.Approved | auth.py:96 | defines the approved list: the whitelist's "approved" member, [] when absent |
| Auth.HasEmail | auth.py:79-86 | defines the two 401 guards passing: a non-empty payload with a non-empty email claim |
| Auth.Guards | auth.py:78-102 | an empty or failed payload is 401 "Invalid token"; a payload without a non-empty email is 401 "Email not found in token"; then an unreadable whitelist is 500 and an email it does not approve is 403; the view runs exactly when the whitelist approves the token's email |
| Auth.GuardCodes | auth.py:71-98 | past the "Bearer " prefix, the decorator's answer for the verified token is the 401, 401, 500 or 403 of the guard that fails first |
| Auth.Authorize | auth.py:65-104 | without the "Bearer " prefix the answer is 401 "Missing or invalid Authorization header"; a request is let in only with the prefix and a non-empty email; `AuthorizedIff`, `GuardOrder` and `GuardCodes` state the rest |
| Auth.AuthorizedIff | auth.py:65-104 | the view runs exactly when the header has the prefix, the token verifies to a non-empty payload with a non-empty email, the whitelist reads and approves that email; the email passed on is the token's |
| Auth.GuardOrder | auth.py:71-98 | denials are 401, 403 or 500; a missing prefix is 401 whatever follows; 500 only without a readable whitelist, which never gives 403 nor lets anyone in |
| Auth.NoBearerIgnoresVerify | auth.py:71-73 | without the prefix, neither the token check nor the whitelist affects the outcome |
| Auth.Request.constructor | auth.py:101 | a request starts without an email |
| Auth.RequireAuth | auth.py:65-104 | the decorator's outcome is `Authorize`; on success `request.email` is the token's email; on denial it is unchanged |
| App.UploadNote | app.py:92 | defines the user's history entry for an upload: "[Uploaded file: <filename>]" |
| App.UploadRoute | app.py:75-96 | the in-place `/upload` view is `UploadReply` of the old state, with the same reply |
| App.UploadReply | app.py:75-96 | defines the `/upload` view on the filesystem; `UploadErrorReplies`, `UploadLogsTwoEntries` and `UploadedFileListed` state its outcomes |
| App.AfterUpload | app.py:84-96 | defines the rest of `/upload` once the pipeline has returned: 400 with the quota message, 500 on a failed save, otherwise the two history appends and 200; `AfterUploadLogsTwo` and `UploadErrorReplies` state it |
| App.UploadKeepsHistory | session_handler.py:27-76 | an upload leaves the chat history as it reads, unless the uploaded file is itself named `chat_history.json` |
| App.UploadErrorReplies | app.py:81-90 | no file or an empty file name is 400 before anything happens; a failed save is 500; a full quota is 400 with its message and no index changes; no error writes a history entry |
| App.UploadLogsTwoEntries | app.py:92-96 | a successful upload replies 200 with the bot message and appends exactly the user's note and then the bot's reply to the history |
| App.AfterUploadLogsTwo | app.py:92-96 | after a successful save, both appends succeed on a readable history, the reply is 200 and the history grows by the note and the bot's reply |
| App.AfterUploadKeepsFile | app.py:92-94 | the two history appends after an upload keep the uploaded file in the user's directory |
| App.NeedsFallback | app.py:126 | defines the fallback test: the first answer is blank or came without sources; `RespondSpec` states its effect on the reply |
| App.FirstAnswer | app.py:111-123 | the user-store attempt yields the chain's answer and sources, or "" with no sources when loading or the chain raised |
| App.ChatRoute | app.py:99-137 | the in-place `/chat` view is `ChatReply` of the old state, with the same reply |
| App.RespondRoute | app.py:125-137 | the in-place end of `/chat` is `Respond` of the state after retrieval |
| App.ChatReply | app.py:99-137 | defines the `/chat` view on the filesystem; `ChatMissingMessage`, `ChatAnswer` and `FallbackIgnoresStore` state its outcomes |
| App.Respond | app.py:125-137 | defines the end of `/chat`; `RespondSpec` states its outcomes |
| App.ChatMissingMessage | app.py:106-107 | a missing or empty message is 400, before the history is touched |
| App.LoadKeepsHistory | session_handler.py:78-90 | choosing a store never changes the upload directories |
| App.RespondSpec | app.py:125-137 | the reply is 200 unless the global chain was needed and raised; the flag is set exactly when the first answer is blank or has no sources; without the flag the reply carries that non-blank answer; the bot entry logged is the reply's response; on an error nothing is written |
| App.ChatAnswer | app.py:109-137 | past the message check, a chat logs the query before retrieval and the reply after it, and decides the fallback as `RespondSpec` says |
| App.FallbackIgnoresStore | app.py:111-129 | a user without an index is answered by the global store through the user chain, and a non-blank answer with sources is then reported with fallback false |
| App.HistoryReply | app.py:140-149 | `/history` is 200 with the stored list exactly when the history reads, and 200 with [] for a user without a directory |
| App.SessionsReply | app.py:152-159 | `/sessions` is 200 with every user directory, none before the first upload |
| App.HasListedSuffix | app.py:172 | defines the listing test: the lower-cased name ends in .pdf, .docx, .csv, .png or .jpg; `NotListed` and `ListingOmits` state what it excludes |
| App.ListUserFiles | app.py:166-173 | the files listed are exactly the names in the user directory whose lower-cased form ends in .pdf, .docx, .csv, .png or .jpg |
| App.FilesReply | app.py:162-177 | `/files` is 200 with the user's email and exactly those names |
| App.NotListed | app.py:170-173 | a name whose lower-cased form ends in none of those suffixes' last letters, or ends in "sx", is not listed |
| App.ListingOmits | app.py:170-173 | `/files` never lists `chat_history.json`, `meta.json` or any `.json` file, nor a workbook (`.xlsx`), although `parse_file` accepts it |
| App.UploadedFileListed | app.py:75-96 | a successful upload of a file with a listed suffix is listed by `/files` afterwards |
| App.RemoveHistoryFile | app.py:189-190 | removing the history file deletes `chat_history.json` of the user's directory and keeps every other file there and every other user's directory; indexes and the set of user directories are unchanged |
| App.ClearMemoryRoute | app.py:180-199 | the in-place `/clear` view is `ClearReply` of the old state |
| App.ClearReply | app.py:180-199 | `/clear` answers 200, removes the user's upload directory, keeps every other user's directory unchanged and every index in `chroma_sessions` in place |
| App.ClearIsClearAll | app.py:180-196 | `/clear` does what `clear_all_user_data` does, always answers 200, and a second `/clear` changes nothing |
| App.ClearKeepsQuota | app.py:185-194 | `/clear` keeps `chroma_sessions/<email>`, so the quota size is unchanged and a user at the quota is refused again right after clearing |
| App.StaleIndexAfterClear | app.py:185-194 | after `/clear`, the next query's history entry recreates the upload directory; the old index is then still chosen when it is listed and opens |

## Left out

- The text splitter (`RecursiveCharacterTextSplitter`) is not modelled. An index records the documents it was built from and the chunk size (800) and overlap (200); the chunks themselves are not computed.
- Embeddings, Chroma's similarity search and the language-model chains are outside the model. Their outcomes are parameters: the user chain's answer and source count, the global chain's result, whether an index opens, and what a build leaves on disk.
- `Chroma.from_documents` is a parameter. A build that raises part-way can leave a partial directory on disk; the model leaves the user's index absent then.
- GlobalLoader.LoadGlobal: a global build that raises is modelled as writing nothing to `vectorstore`, so the model's next load rebuilds. In the source a partial `vectorstore` directory can be left behind, and the next load then reopens it instead.
- PyMuPDF, Tesseract, python-docx, openpyxl and the csv reader are outside the model; `RawFile` carries their outputs. Cell values other than str, int and bool are reduced to their `str()` and whether they are falsy.
- The OCR and debug `print` calls, and every log line, are left out.
- The JWKS fetch over HTTP at import time is outside the model; the key set is a parameter.
- The RSA public key, its PEM encoding, the JWT signature, algorithm, audience and issuer checks, base64url and UTF-8 decoding are parameters. Only the big-endian integers of `n` and `e` and the key lookup are modelled.
- Auth.VerifyToken models the bytes branch of `verify_clerk_token`, but the decorator only ever passes a string.
- The copy of `verify_clerk_token` at app.py:50-69 is dead code: nothing calls it, and it refers to names app.py does not define. It is not modelled.
- The bootstrap at app.py:38-43 makes the same decision as `load_global_vectorstore` (`GlobalLoader.LoadGlobal`) and is not modelled separately.
- Flask routing, CORS, `load_dotenv`, JSON formatting of replies and the request parsing are outside the model. The message and the uploaded file arrive already extracted, as `Option` values. A request body that is not JSON, and a message or email claim that is not a string, are not modelled.
- A whitelist file that is not an object, or whose "approved" member is not a list, is not modelled.
- An uploaded file whose bytes parse as any JSON value (a history list, a meta object, or anything else) is treated as a raw upload. So an uploaded `chat_history.json` holding some other JSON value makes the model's `GetHistory` fail, where the source returns that value with 200.
- Emails and file names are taken as plain path components. A name containing '/' or "..", which would reach other directories, is not modelled.
- `os.listdir` order is not modelled: directory contents are sets and maps, except `DOCS2PARSE`, which is a sequence in listing order.
- A missing `DOCS2PARSE` directory (where `os.listdir` raises) is not modelled.
- Whether a directory is empty is decided on its listed entries. Empty subdirectories of an index count as entries, as `os.listdir` sees them.
- `datetime.utcnow().isoformat()` is an input string.
- Text.Lower lowers ASCII letters only; Python's `lower()` also lowers other Unicode letters.
- Filesystem and store-opening failures are not modelled: creating a directory, saving a file, removing a tree (`Storage.EnsureDir`, `Storage.PutBlob`, `ChatLogger.ClearAll`) and opening an existing store (`GlobalLoader.LoadGlobal`'s reopen) always succeed, although each can raise and give a 500 or reach the handler at app.py:120.
- Concurrent requests and the races between two uploads for one user are not modelled; each request runs alone.

=== FILE: app.dfy ===
/** The request handlers of the Flask application (app.py), after the
    authorization decorator has set the caller's email. Each route is a function
    from the disk state and the outcomes of the foreign calls it makes (the
    retrieval chains, Chroma) to the new disk state and the reply, and a method
    that performs the same steps on a Disk. An exception that escapes a view
    becomes Flask's own 500 reply. */
module App {
  import opened Results
  import opened Text
  import opened FileUtils
  import opened Storage
  import opened GlobalLoader
  import opened SessionHandler
  import opened ChatLogger

  /** A file of request.files: its name and what the decoders make of its bytes. */
  datatype UploadedFile = UploadedFile(filename: string, raw: RawFile)

  datatype ReplyBody =
    | ErrorMsg(error: string)
    | UploadDone(email: string, botResponse: string)
    | ChatDone(response: Body, email: string, fallback: bool)
    | HistoryList(email: string, history: seq<Message>)
    | SessionList(sessions: set<string>)
    | FileList(email: string, files: set<string>)
    | Wiped(message: string)
    | Unhandled                         // an exception escaped the view

  datatype Reply = Reply(status: nat, body: ReplyBody)

  const Crashed := Reply(500, Unhandled)
  const BotUploadMessage := "Thanks! I've processed your file. Ask me anything."

  /** What the user-store chain returned: the "result" text and the number of
      source documents. */
  datatype QaResult = QaResult(answer: string, sources: nat)

  // ---------------------------------------------------------------- /upload

  /** The history entry logged for an uploaded file. */
  function UploadNote(filename: string): string
  {
    "[Uploaded file: " + filename + "]"
  }

  /** The /upload view. file: the form's "file" part, None when absent (a part
      with an empty file name counts as missing); saved, built, now: as for
      handle_file_upload. */
  function UploadReply(fs: Fs, email: string, file: Option<UploadedFile>, saved: bool,
                       built: Option<Tree>, now: string): (Fs, Reply)
  {
    if file.None? || file.value.filename == [] then (fs, Reply(400, ErrorMsg("Missing file")))
    else AfterUpload(Upload(fs, email, file.value.filename, file.value.raw, saved, built, now))
  }

  /** The rest of upload() once handle_file_upload has returned or raised: the
      error replies, or the two history entries (append_message is outside the
      try, so its exception escapes). */
  function AfterUpload(outcome: (Fs, Result<(string, string), UploadError>)): (Fs, Reply)
  {
    var s1 := outcome.0;
    match outcome.1
    case Err(QuotaExceeded(msg)) => (s1, Reply(400, ErrorMsg(msg)))
    case Err(SaveFailed) => (s1, Reply(500, ErrorMsg("File processing failed")))
    case Ok((who, name)) =>
      var s2 := Append(s1, who, "user", Plain(UploadNote(name)));
      if !s2.1 then (s2.0, Crashed)
      else
        var s3 := Append(s2.0, who, "bot", Plain(BotUploadMessage));
        if !s3.1 then (s3.0, Crashed)
        else (s3.0, Reply(200, UploadDone(who, BotUploadMessage)))
  }

  method UploadRoute(d: Disk, email: string, file: Option<UploadedFile>, saved: bool,
                     built: Option<Tree>, now: string) returns (reply: Reply)
    modifies d
    ensures (d.State(), reply) == UploadReply(old(d.State()), email, file, saved, built, now)
  {
    if file.None? || file.value.filename == [] {
      return Reply(400, ErrorMsg("Missing file"));
    }
    var res := HandleFileUpload(d, email, file.value.filename, file.value.raw, saved, built, now);
    if res.Err? {
      match res.error {
        case QuotaExceeded(msg) => return Reply(400, ErrorMsg(msg));
        case SaveFailed => return Reply(500, ErrorMsg("File processing failed"));
      }
    }
    var (who, name) := res.value;
    var ok := AppendMessage(d, who, "user", Plain(UploadNote(name)));
    if !ok {
      return Crashed;
    }
    ok := AppendMessage(d, who, "bot", Plain(BotUploadMessage));
    if !ok {
      return Crashed;
    }
    reply := Reply(200, UploadDone(who, BotUploadMessage));
  }

  /** Creating the user directory, writing another file into it and updating
      meta.json leave the history as it reads. */
  lemma EnsureDirKeepsHistory(fs: Fs, email: string)
    ensures GetHistory(EnsureDir(fs, email), email) == GetHistory(fs, email)
  {
  }

  lemma PutBlobKeepsHistory(fs: Fs, email: string, name: string, b: Blob)
    requires email in fs.uploads && name != HistoryName
    ensures GetHistory(PutBlob(fs, email, name, b), email) == GetHistory(fs, email)
  {
    var r := PutBlob(fs, email, name, b);
    assert HistoryName in r.uploads[email] <==> HistoryName in fs.uploads[email];
  }

  lemma WriteMetaKeepsHistory(fs: Fs, email: string, filename: string, now: string)
    requires email in fs.uploads
    ensures GetHistory(WriteMeta(fs, email, filename, now), email) == GetHistory(fs, email)
  {
    var r := WriteMeta(fs, email, filename, now);
    assert HistoryName in r.uploads[email] <==> HistoryName in fs.uploads[email];
  }

  /** handle_file_upload keeps the chat history unless the uploaded file is itself
      named chat_history.json. */
  lemma UploadKeepsHistory(fs: Fs, email: string, filename: string, raw: RawFile, saved: bool,
                           built: Option<Tree>, now: string)
    requires filename != HistoryName
    ensures GetHistory(Upload(fs, email, filename, raw, saved, built, now).0, email) == GetHistory(fs, email)
  {
    var s1 := EnsureDir(fs, email);
    EnsureDirKeepsHistory(fs, email);
    if saved {
      var s2 := PutBlob(s1, email, filename, RawUpload(raw));
      PutBlobKeepsHistory(s1, email, filename, RawUpload(raw));
      if VectorStoreSize(s2, email) < MaxVectorBytes {
        var s4 := ReplaceIndex(s2, email, Parse(UploadPath(email, filename), raw), built);
        var s5 := WriteMeta(s4, email, filename, now);
        WriteMetaKeepsHistory(s4, email, filename, now);
        assert Upload(fs, email, filename, raw, saved, built, now).0 == s5;
      } else {
        assert Upload(fs, email, filename, raw, saved, built, now).0 == s2;
      }
    } else {
      assert Upload(fs, email, filename, raw, saved, built, now).0 == s1;
    }
  }

  /** The error replies of /upload: no file is 400 before anything happens; the
      quota is 400 with its message; a failed save is 500; in each case no history
      entry is written. */
  lemma UploadErrorReplies(fs: Fs, email: string, file: Option<UploadedFile>, saved: bool,
                           built: Option<Tree>, now: string)
    ensures var outcome := UploadReply(fs, email, file, saved, built, now);
      var after, reply := outcome.0, outcome.1;
      && (file.None? || file.value.filename == [] ==> after == fs && reply == Reply(400, ErrorMsg("Missing file")))
      && (file.Some? && file.value.filename != [] && !saved ==>
            reply == Reply(500, ErrorMsg("File processing failed")) && GetHistory(after, email) == GetHistory(fs, email))
      && (file.Some? && file.value.filename != [] && saved && file.value.filename != HistoryName
          && VectorStoreSize(fs, email) >= MaxVectorBytes ==>
            reply == Reply(400, ErrorMsg(QuotaMessage)) && GetHistory(after, email) == GetHistory(fs, email)
            && after.indexes == fs.indexes)
  {
    if file.Some? && file.value.filename != [] {
      UploadQuotaGuard(fs, email, file.value.filename, file.value.raw, saved, built, now);
      if file.value.filename != HistoryName {
        UploadKeepsHistory(fs, email, file.value.filename, file.value.raw, saved, built, now);
      }
    }
  }

  lemma AppendTwo(h: seq<Message>, a: Message, b: Message)
    ensures h + [a] + [b] == h + [a, b]
  {
  }

  /** A successful upload appends exactly two history entries, the user's note
      first and the bot's reply second. */
  lemma UploadLogsTwoEntries(fs: Fs, email: string, file: UploadedFile, built: Option<Tree>, now: string)
    requires file.filename != [] && file.filename != HistoryName
    requires VectorStoreSize(fs, email) < MaxVectorBytes
    requires GetHistory(fs, email).Some?
    ensures UploadReply(fs, email, Some(file), true, built, now).1 == Reply(200, UploadDone(email, BotUploadMessage))
    ensures GetHistory(UploadReply(fs, email, Some(file), true, built, now).0, email)
         == Some(GetHistory(fs, email).value
                 + [Message("user", Plain(UploadNote(file.filename))), Message("bot", Plain(BotUploadMessage))])
  {
    var outcome := Upload(fs, email, file.filename, file.raw, true, built, now);
    UploadRebuildsFromNewFileOnly(fs, email, file.filename, file.raw, built, now);
    UploadKeepsHistory(fs, email, file.filename, file.raw, true, built, now);
    AfterUploadLogsTwo(outcome, email, file.filename, GetHistory(fs, email).value);
    assert UploadReply(fs, email, Some(file), true, built, now) == AfterUpload(outcome);
  }

  /** The tail of upload() after a successful save: both appends succeed on an
      existing history, so the reply is 200 and the history grows by two. */
  lemma AfterUploadLogsTwo(outcome: (Fs, Result<(string, string), UploadError>), email: string, name: string,
                           h: seq<Message>)
    requires outcome.1 == Ok((email, name))
    requires GetHistory(outcome.0, email) == Some(h)
    ensures AfterUpload(outcome).1 == Reply(200, UploadDone(email, BotUploadMessage))
    ensures GetHistory(AfterUpload(outcome).0, email)
         == Some(h + [Message("user", Plain(UploadNote(name))), Message("bot", Plain(BotUploadMessage))])
  {
    var m1, m2 := Message("user", Plain(UploadNote(name))), Message("bot", Plain(BotUploadMessage));
    var s2 := Append(outcome.0, email, m1.sender, m1.body);
    AppendExtends(outcome.0, email, m1.sender, m1.body);
    var s3 := Append(s2.0, email, m2.sender, m2.body);
    AppendExtends(s2.0, email, m2.sender, m2.body);
    AppendTwo(h, m1, m2);
    assert AfterUpload(outcome) == (s3.0, Reply(200, UploadDone(email, BotUploadMessage)));
  }

  // ---------------------------------------------------------------- /chat

  /** What the user-store attempt yields: the chain's answer, or "" with no sources
      when loading the store or running the chain raised. */
  function FirstAnswer(load: Option<GlobalLoad>, userQa: Option<QaResult>): (a: QaResult)
    ensures load == Some(BuildFailed) || userQa.None? ==> a == QaResult("", 0)
    ensures load != Some(BuildFailed) && userQa.Some? ==> a == userQa.value
  {
    if load == Some(BuildFailed) || userQa.None? then QaResult("", 0) else userQa.value
  }

  /** The global chain is consulted when the answer is blank after strip or no
      source document came back. */
  predicate NeedsFallback(a: QaResult)
  {
    Strip(a.answer) == [] || a.sources == 0
  }

  /** chat(). message: request.json's "message" (None when absent); opens, written:
      as for load_or_create_session_vectorstore; userQa: the user chain's outcome,
      None when it raised; fallbackQa: the global chain's "result", None when it
      raised (that exception is not caught). */
  function ChatReply(fs: Fs, email: string, message: Option<string>, opens: bool,
                     written: Option<set<string>>, userQa: Option<QaResult>,
                     fallbackQa: Option<string>): (Fs, Reply)
  {
    if message.None? || message.value == [] then (fs, Reply(400, ErrorMsg("Missing message")))
    else
      var logged := Append(fs, email, "user", Plain(message.value));
      if !logged.1 then (logged.0, Crashed)
      else
        var loaded := LoadOrCreate(logged.0, email, opens, written);
        Respond(loaded.0, email, message.value, FirstAnswer(loaded.2, userQa), fallbackQa)
  }

  /** The end of chat(): the fallback decision, the bot's history entry, the reply. */
  function Respond(fs: Fs, email: string, query: string, first: QaResult, fallbackQa: Option<string>): (Fs, Reply)
  {
    if NeedsFallback(first) && fallbackQa.None? then (fs, Crashed)
    else
      var fallback := NeedsFallback(first);
      var response := if fallback then QaOutput(query, fallbackQa.value) else Plain(first.answer);
      var logged := Append(fs, email, "bot", response);
      if !logged.1 then (logged.0, Crashed)
      else (logged.0, Reply(200, ChatDone(response, email, fallback)))
  }

  method ChatRoute(d: Disk, email: string, message: Option<string>, opens: bool,
                   written: Option<set<string>>, userQa: Option<QaResult>,
                   fallbackQa: Option<string>) returns (reply: Reply)
    modifies d
    ensures (d.State(), reply) == ChatReply(old(d.State()), email, message, opens, written, userQa, fallbackQa)
  {
    if message.None? || message.value == [] {
      return Reply(400, ErrorMsg("Missing message"));
    }
    var query := message.value;
    var ok := AppendMessage(d, email, "user", Plain(query));
    if !ok {
      return Crashed;
    }
    var _, load := LoadOrCreateSessionVectorstore(d, email, opens, written);
    ghost var loaded := d.State();
    var first := QaResult("", 0);
    if load != Some(BuildFailed) && userQa.Some? {
      first := userQa.value;
    }
    assert ChatReply(old(d.State()), email, message, opens, written, userQa, fallbackQa)
           == Respond(loaded, email, query, first, fallbackQa);
    reply := RespondRoute(d, email, query, first, fallbackQa);
  }

  /** The end of chat() in place: the fallback decision, the bot's history entry
      and the reply are `Respond` of the state after retrieval. */
  method RespondRoute(d: Disk, email: string, query: string, first: QaResult, fallbackQa: Option<string>)
      returns (reply: Reply)
    modifies d
    ensures (d.State(), reply) == Respond(old(d.State()), email, query, first, fallbackQa)
  {
    var fallbackUsed := false;
    var response := Plain(first.answer);
    if Strip(first.answer) == [] || first.sources == 0 {
      if fallbackQa.None? {
        return Crashed;
      }
      response := QaOutput(query, fallbackQa.value);
      fallbackUsed := true;
    }
    var ok := AppendMessage(d, email, "bot", response);
    if !ok {
      return Crashed;
    }
    reply := Reply(200, ChatDone(response, email, fallbackUsed));
  }

  /** A missing or empty message is refused before the history is touched. */
  lemma ChatMissingMessage(fs: Fs, email: string, message: Option<string>, opens: bool,
                           written: Option<set<string>>, userQa: Option<QaResult>, fallbackQa: Option<string>)
    requires message.None? || message.value == []
    ensures ChatReply(fs, email, message, opens, written, userQa, fallbackQa) == (fs, Reply(400, ErrorMsg("Missing message")))
  {
  }

  /** Loading a store changes nothing but the global vectorstore directory, so the
      history reads the same afterwards. */
  lemma LoadKeepsHistory(fs: Fs, email: string, opens: bool, written: Option<set<string>>)
    ensures LoadOrCreate(fs, email, opens, written).0.uploads == fs.uploads
  {
    LoadGlobalSpec(fs, written);
  }

  /** The answer step: 200 unless the global chain was needed and raised; the flag
      holds exactly when the first answer is blank after strip or has no sources;
      without it the reply carries that answer, which is then not blank; the bot's
      entry is the reply's response. */
  lemma RespondSpec(fs: Fs, email: string, query: string, first: QaResult, fallbackQa: Option<string>)
    requires GetHistory(fs, email).Some?
    ensures var r := Respond(fs, email, query, first, fallbackQa);
      && (r.1.status == 200 <==> !NeedsFallback(first) || fallbackQa.Some?)
      && (r.1.status == 200 ==>
            && r.1.body.ChatDone? && r.1.body.email == email
            && (r.1.body.fallback <==> NeedsFallback(first))
            && (r.1.body.fallback ==> r.1.body.response == QaOutput(query, fallbackQa.value))
            && (!r.1.body.fallback ==>
                  r.1.body.response == Plain(first.answer) && !IsBlank(first.answer) && first.sources > 0)
            && GetHistory(r.0, email) == Some(GetHistory(fs, email).value + [Message("bot", r.1.body.response)]))
      && (r.1.status != 200 ==> r.0 == fs)
  {
    StripEmptyIffBlank(first.answer);
    if !NeedsFallback(first) || fallbackQa.Some? {
      var response := if NeedsFallback(first) then QaOutput(query, fallbackQa.value) else Plain(first.answer);
      AppendExtends(fs, email, "bot", response);
    }
  }

  /** A chat that gets past the message check logs the query before retrieval and
      the answer after it, and decides the fallback as the answer step does. */
  lemma ChatAnswer(fs: Fs, email: string, query: string, opens: bool,
                   written: Option<set<string>>, userQa: Option<QaResult>, fallbackQa: Option<string>)
    requires query != [] && GetHistory(fs, email).Some?
    ensures var s1 := Append(fs, email, "user", Plain(query)).0;
      var loaded := LoadOrCreate(s1, email, opens, written);
      var first := FirstAnswer(loaded.2, userQa);
      var r := ChatReply(fs, email, Some(query), opens, written, userQa, fallbackQa);
      && r == Respond(loaded.0, email, query, first, fallbackQa)
      && (r.1.status == 200 <==> !NeedsFallback(first) || fallbackQa.Some?)
      && (r.1.status == 200 ==>
            && r.1.body.ChatDone? && (r.1.body.fallback <==> NeedsFallback(first))
            && GetHistory(r.0, email)
               == Some(GetHistory(fs, email).value + [Message("user", Plain(query)), Message("bot", r.1.body.response)]))
      && (r.1.status != 200 ==>
            GetHistory(r.0, email) == Some(GetHistory(fs, email).value + [Message("user", Plain(query))]))
  {
    var h := GetHistory(fs, email).value;
    var m1 := Message("user", Plain(query));
    AppendExtends(fs, email, m1.sender, m1.body);
    var s1 := Append(fs, email, m1.sender, m1.body).0;
    LoadKeepsHistory(s1, email, opens, written);
    var loaded := LoadOrCreate(s1, email, opens, written);
    assert GetHistory(loaded.0, email) == Some(h + [m1]);
    var first := FirstAnswer(loaded.2, userQa);
    RespondSpec(loaded.0, email, query, first, fallbackQa);
    var r := Respond(loaded.0, email, query, first, fallbackQa);
    if r.1.status == 200 {
      AppendTwo(h, m1, Message("bot", r.1.body.response));
    }
  }

  /** The flag does not tell which store answered: a user without an index of
      their own is served by the global store, and a non-blank answer with sources
      from it is reported with fallback false. */
  lemma FallbackIgnoresStore(fs: Fs, email: string, query: string, written: Option<set<string>>,
                             answer: QaResult, fallbackQa: Option<string>)
    requires query != [] && GetHistory(fs, email).Some? && email !in fs.indexes
    requires fs.vectorRoot.Some? && fs.vectorRoot.value.entries != {}
    requires !IsBlank(answer.answer) && answer.sources > 0
    ensures ChooseStore(Append(fs, email, "user", Plain(query)).0, email, true) == GlobalStore
    ensures ChatReply(fs, email, Some(query), true, written, Some(answer), fallbackQa).1
            == Reply(200, ChatDone(Plain(answer.answer), email, false))
  {
    AppendFrame(fs, email, "user", Plain(query));
    AppendExtends(fs, email, "user", Plain(query));
    var s1 := Append(fs, email, "user", Plain(query)).0;
    LoadGlobalSpec(s1, written);
    assert LoadOrCreate(s1, email, true, written) == (s1, GlobalStore, Some(Reopened));
    assert ChatReply(fs, email, Some(query), true, written, Some(answer), fallbackQa)
           == Respond(s1, email, query, answer, fallbackQa);
    StripEmptyIffBlank(answer.answer);
    RespondSpec(s1, email, query, answer, fallbackQa);
  }

  // ---------------------------------------------------------------- /history, /sessions

  /** history(): the stored list, or 500 when it does not read. */
  function HistoryReply(fs: Fs, email: string): (reply: Reply)
    ensures reply.status == 200 <==> GetHistory(fs, email).Some?
    ensures reply.status == 200 ==> reply.body == HistoryList(email, GetHistory(fs, email).value)
    ensures email !in fs.uploads ==> reply == Reply(200, HistoryList(email, []))
  {
    match GetHistory(fs, email)
    case None => Reply(500, ErrorMsg("Failed to fetch history"))
    case Some(h) => Reply(200, HistoryList(email, h))
  }

  /** sessions(): every user directory, none before the first upload. */
  function SessionsReply(fs: Fs): (reply: Reply)
    ensures reply.status == 200
    ensures !fs.uploadsRoot ==> reply.body == SessionList({})
    ensures fs.uploadsRoot ==> reply.body == SessionList(fs.uploads.Keys)
  {
    Reply(200, SessionList(AllSessions(fs)))
  }

  // ---------------------------------------------------------------- /files

  /** The lower-cased name ends in one of the five suffixes the file list shows:
      .pdf, .docx, .csv, .png or .jpg. */
  predicate HasListedSuffix(name: string)
  {
    var l := Lower(name);
    EndsWith(l, ".pdf") || EndsWith(l, ".docx") || EndsWith(l, ".csv") || EndsWith(l, ".png") || EndsWith(l, ".jpg")
  }

  /** list_user_files(): the names in the user's upload directory that have a listed
      suffix; none when the directory is absent. */
  function ListUserFiles(fs: Fs, email: string): (files: set<string>)
    ensures email !in fs.uploads ==> files == {}
    ensures forall f :: f in files <==> email in fs.uploads && f in fs.uploads[email] && HasListedSuffix(f)
  {
    if email in fs.uploads then set f | f in fs.uploads[email] && HasListedSuffix(f) else {}
  }

  function FilesReply(fs: Fs, email: string): (reply: Reply)
    ensures reply.status == 200 && reply.body.FileList? && reply.body.email == email
    ensures forall f :: f in reply.body.files <==> email in fs.uploads && f in fs.uploads[email] && HasListedSuffix(f)
  {
    Reply(200, FileList(email, ListUserFiles(fs, email)))
  }

  /** The last characters of a string that ends with a suffix are the suffix's. */
  lemma EndsWithTail(s: string, suffix: string)
    ensures EndsWith(s, suffix) ==>
      forall j :: |s| - |suffix| <= j < |s| ==> s[j] == suffix[j - (|s| - |suffix|)]
  {
    if EndsWith(s, suffix) {
      forall j | |s| - |suffix| <= j < |s|
        ensures s[j] == suffix[j - (|s| - |suffix|)]
      {
        assert s[|s| - |suffix|..][j - (|s| - |suffix|)] == s[j];
      }
    }
  }

  /** A name is not listed when its lower-case form ends in none of the listed
      suffixes' last letters, or ends in "sx" (as ".xlsx" does). */
  lemma NotListed(name: string)
    requires |name| >= 2
    requires var l := Lower(name);
      l[|l| - 1] !in {'f', 'x', 'v', 'g'} || (l[|l| - 1] == 'x' && l[|l| - 2] == 's')
    ensures !HasListedSuffix(name)
  {
    var l := Lower(name);
    EndsWithTail(l, ".pdf");
    EndsWithTail(l, ".docx");
    EndsWithTail(l, ".csv");
    EndsWithTail(l, ".png");
    EndsWithTail(l, ".jpg");
  }

  /** /files never lists the .json bookkeeping files (chat_history.json, meta.json),
      nor an uploaded workbook, although the parser accepts .xlsx. */
  lemma ListingOmits(fs: Fs, email: string, name: string)
    ensures EndsWith(HistoryName, ".json") && EndsWith(MetaName, ".json")
    ensures EndsWith(name, ".json") ==> name !in ListUserFiles(fs, email)
    ensures EndsWith(Lower(name), ".xlsx") ==> name !in ListUserFiles(fs, email)
  {
    var l := Lower(name);
    EndsWithTail(name, ".json");
    EndsWithTail(l, ".xlsx");
    if EndsWith(name, ".json") || EndsWith(l, ".xlsx") {
      NotListed(name);
    }
  }

  /** The history entries an upload logs keep every other file of the user's
      directory, whether the appends succeed or not. */
  lemma AfterUploadKeepsFile(outcome: (Fs, Result<(string, string), UploadError>), email: string, name: string)
    requires outcome.1 == Ok((email, name)) && name != HistoryName
    requires email in outcome.0.uploads && name in outcome.0.uploads[email]
    ensures email in AfterUpload(outcome).0.uploads && name in AfterUpload(outcome).0.uploads[email]
  {
    var s2 := Append(outcome.0, email, "user", Plain(UploadNote(name)));
    AppendFrame(outcome.0, email, "user", Plain(UploadNote(name)));
    if s2.1 {
      AppendFrame(s2.0, email, "bot", Plain(BotUploadMessage));
    }
  }

  /** An uploaded file with a listed suffix is listed afterwards. */
  lemma UploadedFileListed(fs: Fs, email: string, file: UploadedFile, built: Option<Tree>, now: string)
    requires file.filename != [] && file.filename != HistoryName && file.filename != MetaName
    requires HasListedSuffix(file.filename)
    requires VectorStoreSize(fs, email) < MaxVectorBytes
    ensures file.filename in ListUserFiles(UploadReply(fs, email, Some(file), true, built, now).0, email)
  {
    var outcome := Upload(fs, email, file.filename, file.raw, true, built, now);
    UploadRebuildsFromNewFileOnly(fs, email, file.filename, file.raw, built, now);
    AfterUploadKeepsFile(outcome, email, file.filename);
    assert UploadReply(fs, email, Some(file), true, built, now) == AfterUpload(outcome);
  }

  // ---------------------------------------------------------------- /clear

  /** os.remove of the history file when it exists. */
  function RemoveHistoryFile(fs: Fs, email: string): (r: Fs)
    ensures r.indexes == fs.indexes && r.vectorRoot == fs.vectorRoot && r.uploads.Keys == fs.uploads.Keys
    ensures email in fs.uploads ==> HistoryName !in r.uploads[email]
    ensures email in fs.uploads ==> forall n :: n in fs.uploads[email] && n != HistoryName ==>
      n in r.uploads[email] && r.uploads[email][n] == fs.uploads[email][n]
    ensures forall u :: u in fs.uploads && u != email ==> r.uploads[u] == fs.uploads[u]
  {
    if email in fs.uploads && HistoryName in fs.uploads[email]
    then fs.(uploads := fs.uploads[email := fs.uploads[email] - {HistoryName}])
    else fs
  }

  /** clear_memory(): the history file, vectorstore/<email> and the upload
      directory are removed, each when present. */
  function ClearReply(fs: Fs, email: string): (r: (Fs, Reply))
    ensures email !in r.0.uploads && r.1.status == 200
    ensures r.0.indexes == fs.indexes
    ensures forall u :: u in fs.uploads && u != email ==> u in r.0.uploads && r.0.uploads[u] == fs.uploads[u]
  {
    var s1 := RemoveHistoryFile(fs, email);
    var s2 := s1.(vectorRoot := RemoveGlobalEntry(s1.vectorRoot, email));
    (s2.(uploads := s2.uploads - {email}), Reply(200, Wiped("User data wiped")))
  }

  method ClearMemoryRoute(d: Disk, email: string) returns (reply: Reply)
    modifies d
    ensures (d.State(), reply) == ClearReply(old(d.State()), email)
  {
    if email in d.uploads && HistoryName in d.uploads[email] {
      d.uploads := d.uploads[email := d.uploads[email] - {HistoryName}];
    }
    if d.vectorRoot.Some? {
      if email in d.vectorRoot.value.entries {
        d.vectorRoot := Some(d.vectorRoot.value.(entries := d.vectorRoot.value.entries - {email}));
      } else {
        assert d.vectorRoot.value.entries - {email} == d.vectorRoot.value.entries;
      }
    }
    if email in d.uploads {
      d.uploads := d.uploads - {email};
    } else {
      assert d.uploads - {email} == d.uploads;
    }
    reply := Reply(200, Wiped("User data wiped"));
  }

  /** /clear does what clear_all_user_data does, always answers 200, and a second
      /clear changes nothing. */
  lemma ClearIsClearAll(fs: Fs, email: string)
    ensures ClearReply(fs, email) == (ClearAll(fs, email), Reply(200, Wiped("User data wiped")))
    ensures ClearReply(ClearReply(fs, email).0, email).0 == ClearReply(fs, email).0
  {
    var s1 := RemoveHistoryFile(fs, email);
    assert s1.uploads - {email} == fs.uploads - {email};
    ClearAllSpec(fs, email);
    var once := ClearAll(fs, email);
    assert RemoveHistoryFile(once, email) == once;
  }

  /** /clear never touches chroma_sessions/<email>: the index and the size the
      quota counts are what they were, so a user who hit the quota is refused
      again right after clearing. */
  lemma ClearKeepsQuota(fs: Fs, email: string, file: UploadedFile, built: Option<Tree>, now: string)
    requires file.filename != []
    ensures ClearReply(fs, email).0.indexes == fs.indexes
    ensures VectorStoreSize(ClearReply(fs, email).0, email) == VectorStoreSize(fs, email)
    ensures VectorStoreSize(fs, email) >= MaxVectorBytes ==>
      UploadReply(ClearReply(fs, email).0, email, Some(file), true, built, now).1 == Reply(400, ErrorMsg(QuotaMessage))
  {
    var after := ClearReply(fs, email).0;
    ClearIsClearAll(fs, email);
    ClearAllSpec(fs, email);
    UploadQuotaGuard(after, email, file.filename, file.raw, true, built, now);
  }

  /** The next /chat after /clear logs its query first, which recreates the upload
      directory; when the old index is still listed and opens, the query is
      answered from the index of the files that /clear meant to forget. */
  lemma StaleIndexAfterClear(fs: Fs, email: string, query: string)
    requires email in fs.indexes && Listed(fs.indexes[email].tree)
    ensures var s := Append(ClearReply(fs, email).0, email, "user", Plain(query)).0;
      && ChooseStore(s, email, true) == UserStore
      && s.indexes[email] == fs.indexes[email]
  {
    var cleared := ClearReply(fs, email).0;
    ClearIsClearAll(fs, email);
    ClearAllSpec(fs, email);
    AppendExtends(cleared, email, "user", Plain(query));
    var s := Append(cleared, email, "user", Plain(query)).0;
    assert HistoryName in s.uploads[email];
    ChooseStoreSpec(s, email, true);
  }
}

=== FILE: auth.dfy ===
/** The authorization decorator (auth.py): a Bearer token is verified against the
    identity provider's JSON Web Key Set, and the email claim it carries must be
    on the whitelist. Signature checking, the PEM encoding of the key, base64
    decoding and JSON parsing are foreign calls and appear as parameters. */
module Auth {
  import opened Results
  import opened Text

  newtype byte = x: int | 0 <= x < 256

  // ---------------------------------------------------------------- big-endian integers

  function Pow256(k: nat): (p: nat)
    ensures p >= 1
  {
    if k == 0 then 1 else 256 * Pow256(k - 1)
  }

  /** Big-endian int.from_bytes: the unsigned value of the bytes, most significant
      first (the Base64urlUInt value of section 6.3.1 of RFC 7518). */
  function FromBytesBig(bs: seq<byte>): (n: nat)
    ensures n < Pow256(|bs|)
  {
    if bs == [] then 0
    else
      var init := FromBytesBig(bs[..|bs| - 1]);
      assert init <= Pow256(|bs| - 1) - 1;
      assert init * 256 <= (Pow256(|bs| - 1) - 1) * 256;
      init * 256 + bs[|bs| - 1] as nat
  }

  /** The len-byte big-endian encoding of n. */
  function ToBytesBig(n: nat, len: nat): (bs: seq<byte>)
    requires n < Pow256(len)
    ensures |bs| == len
  {
    if len == 0 then []
    else
      assert n / 256 < Pow256(len - 1) by { DivBound(n, Pow256(len - 1)); }
      ToBytesBig(n / 256, len - 1) + [(n % 256) as byte]
  }

  lemma DivBound(n: nat, p: nat)
    requires n < 256 * p
    ensures n / 256 < p
  {
  }

  lemma DivMod256(x: nat, r: nat)
    requires r < 256
    ensures (x * 256 + r) / 256 == x && (x * 256 + r) % 256 == r
  {
  }

  /** Decoding an encoding gives the number back. */
  lemma {:induction false} FromToBytes(n: nat, len: nat)
    requires n < Pow256(len)
    ensures FromBytesBig(ToBytesBig(n, len)) == n
  {
    if len > 0 {
      DivBound(n, Pow256(len - 1));
      var bs := ToBytesBig(n, len);
      assert bs[..|bs| - 1] == ToBytesBig(n / 256, len - 1);
      FromToBytes(n / 256, len - 1);
    }
  }

  /** Encoding the value of a byte string in as many bytes gives the string back. */
  lemma {:induction false} ToFromBytes(bs: seq<byte>)
    ensures ToBytesBig(FromBytesBig(bs), |bs|) == bs
  {
    if bs != [] {
      var init := bs[..|bs| - 1];
      DivMod256(FromBytesBig(init), bs[|bs| - 1] as nat);
      ToFromBytes(init);
      assert bs == init + [bs[|bs| - 1]];
    }
  }

  /** Leading zero bytes do not change the value. */
  lemma {:induction false} LeadingZero(bs: seq<byte>)
    ensures FromBytesBig([0] + bs) == FromBytesBig(bs)
  {
    if bs != [] {
      var n := |bs| - 1;
      assert ([0] + bs)[..n + 1] == [0] + bs[..n];
      LeadingZero(bs[..n]);
    }
  }

  // ---------------------------------------------------------------- keys

  /** A key of the JSON Web Key Set; a member the key lacks is None. */
  datatype Jwk = Jwk(kid: Option<string>, n: Option<string>, e: Option<string>)

  /** The first key whose kid matches; None when there is none, or when a key
      without a kid comes before it (looking up its kid raises). */
  function SelectKey(keys: seq<Jwk>, kid: string): (r: Option<Jwk>)
    ensures r.Some? ==> r.value in keys && r.value.kid == Some(kid)
  {
    if keys == [] then None
    else if keys[0].kid.None? then None
    else if keys[0].kid.value == kid then Some(keys[0])
    else SelectKey(keys[1..], kid)
  }

  /** Every key before position i carries a kid that is not the one sought. */
  predicate PassedOver(keys: seq<Jwk>, kid: string, i: nat)
    requires i <= |keys|
  {
    forall j :: 0 <= j < i ==> keys[j].kid.Some? && keys[j].kid.value != kid
  }

  /** The key selected is the first one whose kid matches ... */
  lemma {:induction false} SelectKeySound(keys: seq<Jwk>, kid: string)
    ensures SelectKey(keys, kid).Some? ==>
      exists i :: 0 <= i < |keys| && PassedOver(keys, kid, i)
                  && keys[i].kid == Some(kid) && SelectKey(keys, kid) == Some(keys[i])
  {
    if keys != [] && keys[0].kid.Some? && keys[0].kid.value != kid {
      SelectKeySound(keys[1..], kid);
      if SelectKey(keys, kid).Some? {
        var i :| 0 <= i < |keys| - 1 && PassedOver(keys[1..], kid, i)
                 && keys[1..][i].kid == Some(kid) && SelectKey(keys[1..], kid) == Some(keys[1..][i]);
        assert PassedOver(keys, kid, i + 1);
      }
    } else if keys != [] && keys[0].kid == Some(kid) {
      assert PassedOver(keys, kid, 0);
    }
  }

  /** ... and such a key is always found when every key before it has a kid. */
  lemma {:induction false} SelectKeyComplete(keys: seq<Jwk>, kid: string, i: nat)
    requires i < |keys| && PassedOver(keys, kid, i) && keys[i].kid == Some(kid)
    ensures SelectKey(keys, kid) == Some(keys[i])
  {
    if i > 0 {
      assert PassedOver(keys[1..], kid, i - 1) by {
        forall j | 0 <= j < i - 1
          ensures keys[1..][j].kid.Some? && keys[1..][j].kid.value != kid
        {
          assert keys[1..][j] == keys[j + 1];
        }
      }
      SelectKeyComplete(keys[1..], kid, i - 1);
    }
  }

  /** The integer of a key member: base64url-decoded after "==" is appended (b64 is
      urlsafe_b64decode, None when it raises), then read big-endian. A missing
      member raises. */
  function KeyNumber(member: Option<string>, b64: string -> Option<seq<byte>>): (r: Option<nat>)
    ensures member.None? ==> r.None?
    ensures member.Some? ==> (r.Some? <==> b64(member.value + "==").Some?)
    ensures r.Some? ==> r.value == FromBytesBig(b64(member.value + "==").value)
  {
    if member.None? then None
    else match b64(member.value + "==")
      case None => None
      case Some(bs) => Some(FromBytesBig(bs))
  }

  // ---------------------------------------------------------------- tokens

  datatype Token = TextToken(text: string) | ByteToken(bytes: seq<byte>)

  /** A JWT payload: its claims. */
  type Claims = map<string, string>

  /** verify_clerk_token. utf8: UTF-8 decoding of a byte token, None when it fails;
      headerKid: the kid of the token's unverified header, None when that raises or
      the header has no kid; keys: the key set's "keys" member, None when absent; decode:
      jwt.decode of the token with the RSA key of modulus n and exponent e (its
      signature, algorithm, audience and issuer checks), None when it raises.
      Every failure is None. */
  function VerifyToken(token: Token, utf8: seq<byte> -> Option<string>,
                       headerKid: string -> Option<string>, keys: Option<seq<Jwk>>,
                       b64: string -> Option<seq<byte>>,
                       decode: (string, nat, nat) -> Option<Claims>): Option<Claims>
  {
    var text := match token
      case TextToken(s) => Some(s)
      case ByteToken(bs) => utf8(bs);
    if text.None? || headerKid(text.value).None? || keys.None? then None
    else match SelectKey(keys.value, headerKid(text.value).value)
      case None => None
      case Some(key) =>
        var n := KeyNumber(key.n, b64);
        var e := KeyNumber(key.e, b64);
        if n.None? || e.None? then None else decode(text.value, n.value, e.value)
  }

  /** A verified token was checked with the first key whose kid is the token's,
      whose n and e are the big-endian values of their base64url bytes. */
  lemma VerifyUsesFirstMatchingKey(token: Token, utf8: seq<byte> -> Option<string>,
                                   headerKid: string -> Option<string>, keys: Option<seq<Jwk>>,
                                   b64: string -> Option<seq<byte>>,
                                   decode: (string, nat, nat) -> Option<Claims>)
    requires VerifyToken(token, utf8, headerKid, keys, b64, decode).Some?
    ensures var text := if token.TextToken? then token.text else utf8(token.bytes).value;
      && (token.ByteToken? ==> utf8(token.bytes).Some?)
      && headerKid(text).Some? && keys.Some?
      && exists i :: 0 <= i < |keys.value| && PassedOver(keys.value, headerKid(text).value, i)
           && keys.value[i].kid == headerKid(text)
           && keys.value[i].n.Some? && keys.value[i].e.Some?
           && b64(keys.value[i].n.value + "==").Some? && b64(keys.value[i].e.value + "==").Some?
           && VerifyToken(token, utf8, headerKid, keys, b64, decode)
              == decode(text, FromBytesBig(b64(keys.value[i].n.value + "==").value),
                              FromBytesBig(b64(keys.value[i].e.value + "==").value))
  {
    var text := if token.TextToken? then token.text else utf8(token.bytes).value;
    SelectKeySound(keys.value, headerKid(text).value);
  }

  /** A token that passes every step is decoded with the first key whose kid is the
      token header's, using that key's n and e as big-endian integers. */
  lemma VerifyTokenComplete(token: Token, utf8: seq<byte> -> Option<string>,
                            headerKid: string -> Option<string>, keys: Option<seq<Jwk>>,
                            b64: string -> Option<seq<byte>>,
                            decode: (string, nat, nat) -> Option<Claims>, text: string, i: nat)
    requires (if token.TextToken? then Some(token.text) else utf8(token.bytes)) == Some(text)
    requires headerKid(text).Some? && keys.Some? && i < |keys.value|
    requires PassedOver(keys.value, headerKid(text).value, i) && keys.value[i].kid == headerKid(text)
    requires keys.value[i].n.Some? && b64(keys.value[i].n.value + "==").Some?
    requires keys.value[i].e.Some? && b64(keys.value[i].e.value + "==").Some?
    ensures VerifyToken(token, utf8, headerKid, keys, b64, decode)
            == decode(text, FromBytesBig(b64(keys.value[i].n.value + "==").value),
                            FromBytesBig(b64(keys.value[i].e.value + "==").value))
  {
    SelectKeyComplete(keys.value, headerKid(text).value, i);
  }

  // ---------------------------------------------------------------- the decorator

  const BearerPrefix := "Bearer "

  /** The token of an Authorization header: the header without "Bearer", stripped;
      None when the header does not start with "Bearer ". */
  function ExtractToken(header: string): (t: Option<string>)
    ensures t.Some? <==> StartsWith(header, BearerPrefix)
  {
    if StartsWith(header, BearerPrefix) then Some(Strip(header[6..])) else None
  }

  /** The token is what follows "Bearer ", without surrounding whitespace. */
  lemma TokenAfterPrefix(header: string)
    requires StartsWith(header, BearerPrefix)
    ensures ExtractToken(header) == Some(Strip(header[7..]))
  {
    assert header[6] == ' ';
    assert header[6..] == [' '] + header[7..];
    assert TrimStart(header[6..]) == TrimStart(header[7..]);
  }

  /** whitelist.json as read: "approved" when present. */
  datatype Whitelist = Whitelist(approved: Option<seq<string>>)

  function Approved(w: Whitelist): seq<string>
  {
    if w.approved.None? then [] else w.approved.value
  }

  datatype AuthOutcome = Denied(status: nat, error: string) | Authorized(email: string)

  /** require_clerk_auth's guards, in order. verify: verify_clerk_token applied to
      the extracted token; whitelist: json.load of whitelist.json, None when
      reading it raises. */
  function Authorize(header: string, verify: string -> Option<Claims>, whitelist: Option<Whitelist>): (r: AuthOutcome)
    ensures !StartsWith(header, BearerPrefix) ==> r == Denied(401, "Missing or invalid Authorization header")
    ensures r.Authorized? ==> StartsWith(header, BearerPrefix) && r.email != []
  {
    match ExtractToken(header)
    case None => Denied(401, "Missing or invalid Authorization header")
    case Some(token) => Guards(verify(token), whitelist)
  }

  /** The payload is truthy and carries a truthy email claim. */
  predicate HasEmail(payload: Option<Claims>)
  {
    payload.Some? && payload.value != map[] && "email" in payload.value && payload.value["email"] != []
  }

  /** The guards after the header's: the token's claims, its email, the whitelist.
      Each failure has its own code: 401 for the payload and for the email claim,
      500 for an unreadable whitelist, 403 for an email it does not approve. */
  function Guards(payload: Option<Claims>, whitelist: Option<Whitelist>): (r: AuthOutcome)
    ensures r.Denied? ==> r.status == 401 || r.status == 403 || r.status == 500
    ensures (r.Denied? && r.status == 500) <==> (HasEmail(payload) && whitelist.None?)
    ensures r.Denied? && r.status == 403 ==> whitelist.Some?
    ensures payload.None? || payload.value == map[] ==> r == Denied(401, "Invalid token")
    ensures payload.Some? && payload.value != map[] && !HasEmail(payload) ==>
      r == Denied(401, "Email not found in token")
    ensures HasEmail(payload) && whitelist.None? ==> r == Denied(500, "Internal server error")
    ensures HasEmail(payload) && whitelist.Some? && payload.value["email"] !in Approved(whitelist.value) ==>
      r == Denied(403, "User not allowed")
    ensures r.Authorized? <==>
      HasEmail(payload) && whitelist.Some? && payload.value["email"] in Approved(whitelist.value)
    ensures r.Authorized? ==> r.email == payload.value["email"]
  {
    if payload.None? || payload.value == map[] then Denied(401, "Invalid token")
    else if "email" !in payload.value || payload.value["email"] == [] then Denied(401, "Email not found in token")
    else if whitelist.None? then Denied(500, "Internal server error")
    else if payload.value["email"] !in Approved(whitelist.value) then Denied(403, "User not allowed")
    else Authorized(payload.value["email"])
  }

  /** The view runs exactly when every guard passes, and then for the token's email. */
  lemma AuthorizedIff(header: string, verify: string -> Option<Claims>, whitelist: Option<Whitelist>)
    ensures Authorize(header, verify, whitelist).Authorized? <==>
      && StartsWith(header, BearerPrefix)
      && var p := verify(Strip(header[6..]));
      && p.Some? && p.value != map[] && "email" in p.value && p.value["email"] != []
      && whitelist.Some? && p.value["email"] in Approved(whitelist.value)
    ensures Authorize(header, verify, whitelist).Authorized? ==>
      Authorize(header, verify, whitelist).email == verify(Strip(header[6..])).value["email"]
  {
  }

  /** The statuses in guard order: 401 for the header, the token and the email
      claim, then 500 for the whitelist file, then 403. */
  lemma GuardOrder(header: string, verify: string -> Option<Claims>, whitelist: Option<Whitelist>)
    ensures Authorize(header, verify, whitelist).Denied? ==>
      var st := Authorize(header, verify, whitelist).status; st == 401 || st == 403 || st == 500
    ensures !StartsWith(header, BearerPrefix) ==>
      Authorize(header, verify, whitelist) == Denied(401, "Missing or invalid Authorization header")
    ensures Authorize(header, verify, whitelist).Denied? && Authorize(header, verify, whitelist).status == 500 ==>
      whitelist.None?
    ensures Authorize(header, verify, whitelist).Denied? && Authorize(header, verify, whitelist).status == 403 ==>
      whitelist.Some?
    ensures whitelist.None? ==>
      Authorize(header, verify, whitelist).Denied? && Authorize(header, verify, whitelist).status != 403
  {
    var r := Authorize(header, verify, whitelist);
    match ExtractToken(header)
    case None =>
      assert r == Denied(401, "Missing or invalid Authorization header");
    case Some(token) =>
      assert r == Guards(verify(token), whitelist);
  }

  /** Which failure gets which code, for a header with the Bearer prefix: the
      outcome is decided by the claims verify gives for the stripped token. */
  lemma GuardCodes(header: string, verify: string -> Option<Claims>, whitelist: Option<Whitelist>)
    requires StartsWith(header, BearerPrefix)
    ensures var p := verify(Strip(header[6..]));
      && (p.None? || p.value == map[] ==> Authorize(header, verify, whitelist) == Denied(401, "Invalid token"))
      && (p.Some? && p.value != map[] && !HasEmail(p) ==>
            Authorize(header, verify, whitelist) == Denied(401, "Email not found in token"))
      && (HasEmail(p) && whitelist.None? ==>
            Authorize(header, verify, whitelist) == Denied(500, "Internal server error"))
      && (HasEmail(p) && whitelist.Some? && p.value["email"] !in Approved(whitelist.value) ==>
            Authorize(header, verify, whitelist) == Denied(403, "User not allowed"))
  {
    assert ExtractToken(header) == Some(Strip(header[6..]));
    assert Authorize(header, verify, whitelist) == Guards(verify(Strip(header[6..])), whitelist);
  }

  /** Without the Bearer prefix neither the token check nor the whitelist is
      consulted: the outcome is the same whatever they would say. */
  lemma NoBearerIgnoresVerify(header: string, v1: string -> Option<Claims>, v2: string -> Option<Claims>,
                              w1: Option<Whitelist>, w2: Option<Whitelist>)
    requires !StartsWith(header, BearerPrefix)
    ensures Authorize(header, v1, w1) == Authorize(header, v2, w2)
  {
  }

  /** The request object's email attribute. */
  class Request {
    var email: Option<string>

    constructor ()
      ensures email.None?
    {
      email := None;
    }
  }

  /** The decorator: early returns for each guard; on success request.email is set
      before the view runs. */
  method RequireAuth(req: Request, header: string, verify: string -> Option<Claims>,
                     whitelist: Option<Whitelist>) returns (outcome: AuthOutcome)
    modifies req
    ensures outcome == Authorize(header, verify, whitelist)
    ensures outcome.Authorized? ==> req.email == Some(outcome.email)
    ensures outcome.Denied? ==> req.email == old(req.email)
  {
    if !StartsWith(header, BearerPrefix) {
      return Denied(401, "Missing or invalid Authorization header");
    }
    var token := Strip(header[6..]);
    var payload := verify(token);
    if payload.None? || payload.value == map[] {
      return Denied(401, "Invalid token");
    }
    if "email" !in payload.value || payload.value["email"] == [] {
      return Denied(401, "Email not found in token");
    }
    var email := payload.value["email"];
    if whitelist.None? {
      return Denied(500, "Internal server error");
    }
    if email !in Approved(whitelist.value) {
      return Denied(403, "User not allowed");
    }
    req.email := Some(email);
    outcome := Authorized(email);
  }
}

=== FILE: chat_logger.dfy ===
/** The conversation log (chat_logger.py): session_uploads/<email>/chat_history.json,
    a list that only grows, and the removal of a user's data. */
module ChatLogger {
  import opened Results
  import opened Text
  import opened Storage

  const BaseDir := "session_uploads"
  const VectorDir := "vectorstore"
  const HistoryName := "chat_history.json"

  /** get_history_file */
  function GetHistoryFile(email: string): (path: string)
    ensures email != [] && !StartsWith(email, "/") && !EndsWith(email, "/") ==>
      path == BaseDir + "/" + email + "/" + HistoryName
  {
    var dir := PathJoin(BaseDir, email);
    assert email != [] && !StartsWith(email, "/") ==> dir == BaseDir + "/" + email by {
      assert BaseDir[|BaseDir| - 1] == 's';
    }
    assert HistoryName[0] == 'c';
    PathJoin(dir, HistoryName)
  }

  /** get_history: [] without a file, the stored list otherwise; None when the
      file does not read as a history list (json.load raises). */
  function GetHistory(fs: Fs, email: string): (h: Option<seq<Message>>)
    ensures email !in fs.uploads || HistoryName !in fs.uploads[email] ==> h == Some([])
    ensures email in fs.uploads && HistoryName in fs.uploads[email] ==>
      (h.Some? <==> fs.uploads[email][HistoryName].HistoryFile?)
    ensures h.Some? && email in fs.uploads && HistoryName in fs.uploads[email] ==>
      h.value == fs.uploads[email][HistoryName].entries
  {
    if email !in fs.uploads || HistoryName !in fs.uploads[email] then Some([])
    else match fs.uploads[email][HistoryName]
      case HistoryFile(entries) => Some(entries)
      case _ => None
  }

  /** append_message: the directory is created, the history read, extended by
      one entry and written back; false when reading raised (nothing written). */
  function Append(fs: Fs, email: string, sender: string, body: Body): (Fs, bool)
  {
    var s1 := EnsureDir(fs, email);
    match GetHistory(s1, email)
    case None => (s1, false)
    case Some(h) => (PutBlob(s1, email, HistoryName, HistoryFile(h + [Message(sender, body)])), true)
  }

  /** The history after an append is the history before it followed by exactly the
      new entry; a history that does not read makes the append fail. */
  lemma AppendExtends(fs: Fs, email: string, sender: string, body: Body)
    ensures Append(fs, email, sender, body).1 <==> GetHistory(fs, email).Some?
    ensures Append(fs, email, sender, body).1 ==>
      GetHistory(Append(fs, email, sender, body).0, email) == Some(GetHistory(fs, email).value + [Message(sender, body)])
  {
  }

  /** An append changes nothing but the user's history file, and leaves the user's
      directory, and session_uploads above it, in place. */
  lemma AppendFrame(fs: Fs, email: string, sender: string, body: Body)
    ensures var after := Append(fs, email, sender, body).0;
      && after.indexes == fs.indexes && after.vectorRoot == fs.vectorRoot
      && after.docsDir == fs.docsDir && after.uploadsRoot
      && email in after.uploads && after.uploads.Keys == fs.uploads.Keys + {email}
      && (forall u :: u in fs.uploads && u != email ==> after.uploads[u] == fs.uploads[u])
      && (forall n :: email in fs.uploads && n in fs.uploads[email] && n != HistoryName ==>
            n in after.uploads[email] && after.uploads[email][n] == fs.uploads[email][n])
  {
  }

  method AppendMessage(d: Disk, email: string, sender: string, body: Body) returns (ok: bool)
    modifies d
    ensures (d.State(), ok) == Append(old(d.State()), email, sender, body)
  {
    d.MakeUserDir(email);
    var history: seq<Message> := [];
    if HistoryName in d.uploads[email] {
      match d.uploads[email][HistoryName] {
        case HistoryFile(entries) => history := entries;
        case _ => return false;
      }
    }
    history := history + [Message(sender, body)];
    d.WriteFile(email, HistoryName, HistoryFile(history));
    ok := true;
  }

  /** get_all_sessions: the names in session_uploads, none when it does not exist. */
  function AllSessions(fs: Fs): (names: set<string>)
    ensures !fs.uploadsRoot ==> names == {}
    ensures fs.uploadsRoot ==> names == fs.uploads.Keys
  {
    if fs.uploadsRoot then fs.uploads.Keys else {}
  }

  /** Removes vectorstore/<email> when it exists. */
  function RemoveGlobalEntry(root: Option<GlobalDir>, email: string): (r: Option<GlobalDir>)
    ensures root.None? ==> r.None?
    ensures root.Some? ==> r == Some(root.value.(entries := root.value.entries - {email}))
  {
    match root
    case None => None
    case Some(g) => Some(g.(entries := g.entries - {email}))
  }

  /** clear_all_user_data */
  function ClearAll(fs: Fs, email: string): Fs
  {
    fs.(uploads := fs.uploads - {email}, vectorRoot := RemoveGlobalEntry(fs.vectorRoot, email))
  }

  /** Clearing removes the user's upload directory and vectorstore/<email>, is
      idempotent, and leaves chroma_sessions/<email> (the index that counts
      against the quota) where it was. */
  lemma ClearAllSpec(fs: Fs, email: string)
    ensures email !in ClearAll(fs, email).uploads
    ensures ClearAll(ClearAll(fs, email), email) == ClearAll(fs, email)
    ensures ClearAll(fs, email).indexes == fs.indexes
    ensures forall u :: u != email ==> (u in ClearAll(fs, email).uploads <==> u in fs.uploads)
    ensures forall u :: u != email && u in fs.uploads ==> ClearAll(fs, email).uploads[u] == fs.uploads[u]
    ensures ClearAll(fs, email).vectorRoot == RemoveGlobalEntry(fs.vectorRoot, email)
    ensures ClearAll(fs, email).vectorRoot.Some? ==> email !in ClearAll(fs, email).vectorRoot.value.entries
    ensures ClearAll(fs, email).docsDir == fs.docsDir && ClearAll(fs, email).uploadsRoot == fs.uploadsRoot
  {
    var once := ClearAll(fs, email);
    assert once.uploads - {email} == once.uploads;
    if once.vectorRoot.Some? {
      assert once.vectorRoot.value.entries - {email} == once.vectorRoot.value.entries;
    }
  }

  method ClearAllUserData(d: Disk, email: string)
    modifies d
    ensures d.State() == ClearAll(old(d.State()), email)
  {
    if email in d.uploads {
      d.uploads := d.uploads - {email};
    } else {
      assert d.uploads - {email} == d.uploads;
    }
    if d.vectorRoot.Some? {
      if email in d.vectorRoot.value.entries {
        d.vectorRoot := Some(d.vectorRoot.value.(entries := d.vectorRoot.value.entries - {email}));
      } else {
        assert d.vectorRoot.value.entries - {email} == d.vectorRoot.value.entries;
      }
    }
  }
}

=== FILE: file_utils.dfy ===
/** Text extraction (file_utils.py): one file in, a list of documents out, chosen
    by the file's extension. The format libraries (PyMuPDF, Tesseract, python-docx,
    openpyxl, the csv reader) are not modelled: a RawFile carries what each of them
    would deliver for the file's bytes, and None where it would raise. */
module FileUtils {
  import opened Results
  import opened Text

  /** A langchain Document: page_content with its "source" and, for PDF pages, "page" metadata. */
  datatype Doc = Doc(content: string, source: string, page: Option<nat>)

  /** A PDF page: the text PyMuPDF extracts, and the OCR text of each embedded image in order. */
  datatype PdfPage = PdfPage(text: string, imageTexts: seq<string>)

  /** The pages the PDF reader delivered; when failed, it raised while on the next page
      (or while opening the file, when pages is empty). */
  datatype PdfRead = PdfRead(pages: seq<PdfPage>, failed: bool)

  /** A spreadsheet cell value as openpyxl returns it with data_only=True.
      FloatCell stands for the remaining value kinds: their str() and whether they are falsy. */
  datatype Cell = NoCell | TextCell(s: string) | IntCell(i: int) | BoolCell(b: bool)
                | FloatCell(repr: string, isZero: bool)

  type Row = seq<Cell>
  type Sheet = seq<Row>

  /** What each decoder yields for one file's bytes. */
  datatype RawFile = RawFile(
    asPdf: PdfRead,
    asDocx: Option<seq<string>>,
    asXlsx: Option<seq<Sheet>>,
    asCsv: Option<seq<seq<string>>>,
    asText: Option<string>,
    asImage: Option<string>)

  // ---------------------------------------------------------------- extension

  /** The index of the last c in s, or -1. */
  function LastIndex(s: string, c: char): (k: int)
    ensures -1 <= k < |s|
    ensures k >= 0 ==> s[k] == c
    ensures forall j :: k < j < |s| ==> s[j] != c
  {
    if s == [] then -1
    else if s[|s| - 1] == c then |s| - 1
    else LastIndex(s[..|s| - 1], c)
  }

  /** No '/' at or after position k: k lies in the last path component. */
  predicate InLastComponent(p: string, k: nat)
  {
    forall j :: k <= j < |p| ==> p[j] != '/'
  }

  /** The extension splitext gives: from the last dot of the last path component, provided
      that component has a character other than a dot before it; otherwise "". */
  function Ext(p: string): (e: string)
    ensures e == [] || (e[0] == '.' && EndsWith(p, e))
    ensures forall j :: 0 <= j < |e| ==> e[j] != '/'
    ensures forall j :: 1 <= j < |e| ==> e[j] != '.'
  {
    var sep := LastIndex(p, '/');
    var dot := LastIndex(p, '.');
    if dot > sep && exists k :: sep < k < dot && p[k] != '.' then p[dot..] else ""
  }

  /** When the extension is not empty: by Ext's contract it is the suffix from
      the last dot. This lemma says exactly when it is not empty: the last path
      component holds a dot with some character other than a dot before it. */
  lemma ExtNonEmptyIff(p: string)
    ensures (exists i, k :: 0 <= k < i < |p| && p[i] == '.' && p[k] != '.' && InLastComponent(p, k)) ==> Ext(p) != []
    ensures Ext(p) != [] ==> exists k :: 0 <= k < |p| - |Ext(p)| && p[k] != '.' && InLastComponent(p, k)
  {
    var sep := LastIndex(p, '/');
    var dot := LastIndex(p, '.');
    if exists i, k :: 0 <= k < i < |p| && p[i] == '.' && p[k] != '.' && InLastComponent(p, k) {
      var i, k :| 0 <= k < i < |p| && p[i] == '.' && p[k] != '.' && InLastComponent(p, k);
      assert dot >= i;
      assert sep < k;
    }
    if Ext(p) != [] {
      var k :| sep < k < dot && p[k] != '.';
      assert InLastComponent(p, k);
    }
  }

  /** The extractors, as a closed variant; Unsupported yields no documents. */
  datatype Format = Pdf | Docx | Xlsx | Csv | PlainText | Image | Unsupported

  const SupportedExtensions: set<string> :=
    {".pdf", ".docx", ".xlsx", ".csv", ".txt", ".md", ".png", ".jpg", ".jpeg", ".webp"}

  /** The extractor parse_file dispatches to, on the lower-cased extension. */
  function FormatOf(path: string): (f: Format)
    ensures f == Unsupported <==> Lower(Ext(path)) !in SupportedExtensions
    ensures f == Pdf <==> Lower(Ext(path)) == ".pdf"
    ensures f == Docx <==> Lower(Ext(path)) == ".docx"
    ensures f == Xlsx <==> Lower(Ext(path)) == ".xlsx"
    ensures f == Csv <==> Lower(Ext(path)) == ".csv"
    ensures f == PlainText <==> Lower(Ext(path)) in {".txt", ".md"}
    ensures f == Image <==> Lower(Ext(path)) in {".png", ".jpg", ".jpeg", ".webp"}
  {
    var ext := Lower(Ext(path));
    if ext == ".pdf" then Pdf
    else if ext == ".docx" then Docx
    else if ext == ".xlsx" then Xlsx
    else if ext == ".csv" then Csv
    else if ext in [".txt", ".md"] then PlainText
    else if ext in [".png", ".jpg", ".jpeg", ".webp"] then Image
    else Unsupported
  }

  // ---------------------------------------------------------------- shared shape

  /** One document holding the stripped text, or none when the text is blank or the
      decoder raised: the txt, markdown, image, csv and xlsx paths. */
  function StrippedDocs(path: string, text: Option<string>): (docs: seq<Doc>)
    ensures |docs| <= 1
    ensures docs == [] <==> text.None? || IsBlank(text.value)
    ensures docs != [] ==> docs[0] == Doc(Strip(text.value), path, None) && !IsBlank(docs[0].content)
  {
    match text
    case None => []
    case Some(t) =>
      StripEmptyIffBlank(t);
      StripEmptyIffBlank(Strip(t));
      StripIdempotent(t);
      if Strip(t) != "" then [Doc(Strip(t), path, None)] else []
  }

  // ---------------------------------------------------------------- PDF

  /** The OCR texts of a page's images, each after a newline. */
  function ImageSuffix(ocr: seq<string>): string
  {
    if ocr == [] then "" else ImageSuffix(ocr[..|ocr| - 1]) + "\n" + ocr[|ocr| - 1]
  }

  function PageText(p: PdfPage): string
  {
    p.text + ImageSuffix(p.imageTexts)
  }

  lemma ImageSuffixStep(ocr: seq<string>, j: nat)
    requires j < |ocr|
    ensures ImageSuffix(ocr[..j + 1]) == ImageSuffix(ocr[..j]) + "\n" + ocr[j]
  {
    assert ocr[..j + 1][..j] == ocr[..j];
  }

  /** The documents of the given pages: one per non-blank page, unstripped, numbered from 0. */
  function PdfDocs(path: string, pages: seq<PdfPage>): seq<Doc>
  {
    if pages == [] then []
    else
      var n := |pages| - 1;
      var t := PageText(pages[n]);
      PdfDocs(path, pages[..n]) + (if Strip(t) != "" then [Doc(t, path, Some(n))] else [])
  }

  lemma PdfDocsStep(path: string, pages: seq<PdfPage>, i: nat)
    requires i < |pages|
    ensures PdfDocs(path, pages[..i + 1]) == PdfDocs(path, pages[..i])
      + (if Strip(PageText(pages[i])) != "" then [Doc(PageText(pages[i]), path, Some(i))] else [])
  {
    assert pages[..i + 1][..i] == pages[..i];
  }

  /** extract_text_from_pdf. The pages read before a failure are kept: the list
      is returned after the exception handler. */
  method ExtractPdf(path: string, read: PdfRead) returns (texts: seq<Doc>)
    ensures texts == PdfDocs(path, read.pages)
  {
    texts := [];
    var pages := read.pages;
    var i := 0;
    while i < |pages|
      invariant 0 <= i <= |pages|
      invariant texts == PdfDocs(path, pages[..i])
    {
      var page := pages[i];
      var pageText := page.text;
      var j := 0;
      while j < |page.imageTexts|
        invariant 0 <= j <= |page.imageTexts|
        invariant pageText == page.text + ImageSuffix(page.imageTexts[..j])
      {
        ImageSuffixStep(page.imageTexts, j);
        pageText := pageText + "\n" + page.imageTexts[j];
        j := j + 1;
      }
      assert page.imageTexts[..j] == page.imageTexts;
      PdfDocsStep(path, pages, i);
      if Strip(pageText) != "" {
        texts := texts + [Doc(pageText, path, Some(i))];
      }
      i := i + 1;
    }
    assert pages[..i] == pages;
  }

  /** d is the document of one non-blank page of the input: its content that page's
      text with the OCR text appended, its source the path. */
  predicate PageDoc(path: string, pages: seq<PdfPage>, d: Doc)
  {
    && d.source == path && d.page.Some? && d.page.value < |pages|
    && d.content == PageText(pages[d.page.value]) && !IsBlank(d.content)
  }

  /** Every PDF document is a non-blank page of the input. */
  lemma {:induction false} PdfDocsSound(path: string, pages: seq<PdfPage>)
    ensures forall k :: 0 <= k < |PdfDocs(path, pages)| ==> PageDoc(path, pages, PdfDocs(path, pages)[k])
  {
    if pages != [] {
      var n := |pages| - 1;
      var prev := PdfDocs(path, pages[..n]);
      var all := PdfDocs(path, pages);
      PdfDocsSound(path, pages[..n]);
      StripEmptyIffBlank(PageText(pages[n]));
      forall k | 0 <= k < |all|
        ensures PageDoc(path, pages, all[k])
      {
        if k < |prev| {
          assert all[k] == prev[k];
          assert PageDoc(path, pages[..n], prev[k]);
          assert pages[..n][prev[k].page.value] == pages[prev[k].page.value];
        }
      }
    }
  }

  /** a comes from an earlier page than b. */
  predicate PageBefore(a: Doc, b: Doc)
  {
    a.page.Some? && b.page.Some? && a.page.value < b.page.value
  }

  /** The PDF documents come in increasing page order. */
  lemma {:induction false} PdfDocsOrdered(path: string, pages: seq<PdfPage>)
    ensures forall k, l :: 0 <= k < l < |PdfDocs(path, pages)| ==>
      PageBefore(PdfDocs(path, pages)[k], PdfDocs(path, pages)[l])
  {
    if pages != [] {
      var n := |pages| - 1;
      var prev := PdfDocs(path, pages[..n]);
      var all := PdfDocs(path, pages);
      PdfDocsSound(path, pages[..n]);
      PdfDocsOrdered(path, pages[..n]);
      forall k, l | 0 <= k < l < |all|
        ensures PageBefore(all[k], all[l])
      {
        assert all[k] == prev[k];
        if l < |prev| {
          assert all[l] == prev[l];
        } else {
          assert PageDoc(path, pages[..n], prev[k]);
        }
      }
    }
  }

  /** Every page whose text is not blank yields a document. */
  lemma {:induction false} PdfDocsComplete(path: string, pages: seq<PdfPage>, i: nat)
    requires i < |pages| && !IsBlank(PageText(pages[i]))
    ensures exists k :: 0 <= k < |PdfDocs(path, pages)| && PdfDocs(path, pages)[k].page == Some(i)
  {
    var n := |pages| - 1;
    var prev := PdfDocs(path, pages[..n]);
    var all := PdfDocs(path, pages);
    if i == n {
      StripEmptyIffBlank(PageText(pages[n]));
      assert all == prev + [Doc(PageText(pages[n]), path, Some(n))];
      assert all[|prev|].page == Some(i);
    } else {
      assert pages[..n][i] == pages[i];
      PdfDocsComplete(path, pages[..n], i);
      var k :| 0 <= k < |prev| && prev[k].page == Some(i);
      assert all[k] == prev[k];
    }
  }

  // ---------------------------------------------------------------- DOCX

  /** extract_text_from_docx: the paragraphs joined by newlines, kept unstripped. */
  function DocxDocs(path: string, paragraphs: Option<seq<string>>): (docs: seq<Doc>)
    ensures |docs| <= 1
    ensures docs != [] ==> docs[0].source == path && docs[0].page.None? && !IsBlank(docs[0].content)
    ensures docs == [] <==> paragraphs.None? || IsBlank(Join("\n", paragraphs.value))
    ensures docs != [] ==> docs == [Doc(Join("\n", paragraphs.value), path, None)]
  {
    match paragraphs
    case None => []
    case Some(ps) =>
      var text := Join("\n", ps);
      StripEmptyIffBlank(text);
      if Strip(text) != "" then [Doc(text, path, None)] else []
  }

  /** A DOCX file gives a document exactly when some paragraph is not blank. */
  lemma DocxDocIffSomeText(path: string, ps: seq<string>)
    ensures DocxDocs(path, Some(ps)) != [] <==> exists i :: 0 <= i < |ps| && !IsBlank(ps[i])
  {
    JoinBlank("\n", ps);
    StripEmptyIffBlank(Join("\n", ps));
  }

  // ---------------------------------------------------------------- CSV

  /** Each row's fields joined by " | " and ended by a newline, concatenated. */
  function CsvText(rows: seq<seq<string>>): string
  {
    if rows == [] then ""
    else CsvText(rows[..|rows| - 1]) + Join(" | ", rows[|rows| - 1]) + "\n"
  }

  function CsvDocs(path: string, rows: Option<seq<seq<string>>>): seq<Doc>
  {
    match rows
    case None => []
    case Some(rs) => StrippedDocs(path, Some(CsvText(rs)))
  }

  /** extract_text_from_csv */
  method ExtractCsv(path: string, read: Option<seq<seq<string>>>) returns (docs: seq<Doc>)
    ensures docs == CsvDocs(path, read)
  {
    if read.None? {
      return [];
    }
    var rows := read.value;
    var text := "";
    var i := 0;
    while i < |rows|
      invariant 0 <= i <= |rows|
      invariant text == CsvText(rows[..i])
    {
      assert rows[..i + 1][..i] == rows[..i];
      text := text + Join(" | ", rows[i]) + "\n";
      i := i + 1;
    }
    assert rows[..i] == rows;
    docs := if Strip(text) != "" then [Doc(Strip(text), path, None)] else [];
  }

  /** A row is blank when it has at most one field and that field is blank:
      two fields or more put a "|" in the text. */
  predicate BlankFields(fields: seq<string>)
  {
    |fields| <= 1 && forall j :: 0 <= j < |fields| ==> IsBlank(fields[j])
  }

  lemma SeparatorNotBlank()
    ensures !IsBlank(" | ")
  {
    assert !IsSpace(" | "[1]);
  }

  lemma {:induction false} CsvTextBlank(rows: seq<seq<string>>)
    ensures IsBlank(CsvText(rows)) <==> forall i :: 0 <= i < |rows| ==> BlankFields(rows[i])
  {
    if rows != [] {
      var n := |rows| - 1;
      CsvTextBlank(rows[..n]);
      JoinBlank(" | ", rows[n]);
      SeparatorNotBlank();
      BlankConcat(CsvText(rows[..n]), Join(" | ", rows[n]));
      BlankConcat(CsvText(rows[..n]) + Join(" | ", rows[n]), "\n");
      assert forall i :: 0 <= i < n ==> rows[..n][i] == rows[i];
    }
  }

  /** A CSV file gives no document exactly when every row is blank in that sense;
      otherwise one document, whose content is the stripped text. */
  lemma CsvDocsEmptyIff(path: string, rows: seq<seq<string>>)
    ensures CsvDocs(path, Some(rows)) == [] <==> forall i :: 0 <= i < |rows| ==> BlankFields(rows[i])
    ensures CsvDocs(path, Some(rows)) != [] ==> CsvDocs(path, Some(rows)) == [Doc(Strip(CsvText(rows)), path, None)]
  {
    CsvTextBlank(rows);
  }

  // ---------------------------------------------------------------- XLSX

  /** The number a string of decimal digits denotes, most significant digit first. */
  function DigitsValue(s: string): nat
    requires forall j :: 0 <= j < |s| ==> '0' <= s[j] <= '9'
  {
    if s == [] then 0 else DigitsValue(s[..|s| - 1]) * 10 + (s[|s| - 1] as int - '0' as int)
  }

  /** The decimal digit character for d. */
  function DigitChar(d: nat): (c: char)
    requires d < 10
    ensures '0' <= c <= '9' && c as int - '0' as int == d
  {
    ('0' as int + d) as char
  }

  /** str(n): the decimal digits of n, without leading zeros. */
  function NatToString(n: nat): (s: string)
    ensures s != []
    ensures forall j :: 0 <= j < |s| ==> '0' <= s[j] <= '9'
    ensures DigitsValue(s) == n
    ensures s[0] == '0' ==> n == 0 && s == "0"
  {
    if n < 10 then [DigitChar(n)]
    else
      var init := NatToString(n / 10);
      var s := init + [DigitChar(n % 10)];
      assert s[..|s| - 1] == init;
      s
  }

  /** str(i) for a Python int. */
  function IntToString(i: int): string
  {
    if i < 0 then "-" + NatToString(-i) else NatToString(i)
  }

  /** A cell's text: its string form, except that every falsy value (no value, 0,
      False, the empty string, 0.0) renders as "". */
  function CellText(c: Cell): string
  {
    match c
    case NoCell => ""
    case TextCell(s) => s
    case IntCell(i) => if i == 0 then "" else IntToString(i)
    case BoolCell(b) => if b then "True" else ""
    case FloatCell(repr, isZero) => if isZero then "" else repr
  }

  function RowTexts(r: Row): seq<string>
  {
    seq(|r|, j requires 0 <= j < |r| => CellText(r[j]))
  }

  /** Each row of a sheet as a newline followed by its cells joined by " | ". */
  function SheetText(rows: Sheet): string
  {
    if rows == [] then ""
    else SheetText(rows[..|rows| - 1]) + "\n" + Join(" | ", RowTexts(rows[|rows| - 1]))
  }

  /** Every sheet's text, sheets in workbook order. */
  function XlsxText(sheets: seq<Sheet>): string
  {
    if sheets == [] then "" else XlsxText(sheets[..|sheets| - 1]) + SheetText(sheets[|sheets| - 1])
  }

  function XlsxDocs(path: string, sheets: Option<seq<Sheet>>): seq<Doc>
  {
    match sheets
    case None => []
    case Some(ss) => StrippedDocs(path, Some(XlsxText(ss)))
  }

  lemma SheetTextStep(rows: Sheet, r: nat)
    requires r < |rows|
    ensures SheetText(rows[..r + 1]) == SheetText(rows[..r]) + "\n" + Join(" | ", RowTexts(rows[r]))
  {
    assert rows[..r + 1][..r] == rows[..r];
  }

  lemma XlsxTextStep(sheets: seq<Sheet>, s: nat)
    requires s < |sheets|
    ensures XlsxText(sheets[..s + 1]) == XlsxText(sheets[..s]) + SheetText(sheets[s])
  {
    assert sheets[..s + 1][..s] == sheets[..s];
  }

  /** The inner loop of extract_text_from_xlsx: one sheet's rows added to the text. */
  method AppendSheet(text: string, rows: Sheet) returns (t: string)
    ensures t == text + SheetText(rows)
  {
    t := text;
    var r := 0;
    while r < |rows|
      invariant 0 <= r <= |rows|
      invariant t == text + SheetText(rows[..r])
    {
      SheetTextStep(rows, r);
      t := t + "\n" + Join(" | ", RowTexts(rows[r]));
      r := r + 1;
    }
    assert rows[..r] == rows;
  }

  /** extract_text_from_xlsx */
  method ExtractXlsx(path: string, read: Option<seq<Sheet>>) returns (docs: seq<Doc>)
    ensures docs == XlsxDocs(path, read)
  {
    if read.None? {
      return [];
    }
    var sheets := read.value;
    var text := "";
    var s := 0;
    while s < |sheets|
      invariant 0 <= s <= |sheets|
      invariant text == XlsxText(sheets[..s])
    {
      text := AppendSheet(text, sheets[s]);
      XlsxTextStep(sheets, s);
      s := s + 1;
    }
    assert sheets[..s] == sheets;
    assert XlsxDocs(path, read) == StrippedDocs(path, Some(text));
    docs := if Strip(text) != "" then [Doc(Strip(text), path, None)] else [];
  }

  /** Every row of the sheet renders blank. */
  predicate BlankSheet(rows: Sheet)
  {
    forall i :: 0 <= i < |rows| ==> BlankFields(RowTexts(rows[i]))
  }

  lemma {:induction false} SheetTextBlank(rows: Sheet)
    ensures IsBlank(SheetText(rows)) <==> BlankSheet(rows)
  {
    if rows != [] {
      var n := |rows| - 1;
      SheetTextBlank(rows[..n]);
      JoinBlank(" | ", RowTexts(rows[n]));
      SeparatorNotBlank();
      BlankConcat(SheetText(rows[..n]), "\n");
      BlankConcat(SheetText(rows[..n]) + "\n", Join(" | ", RowTexts(rows[n])));
      assert forall i :: 0 <= i < n ==> rows[..n][i] == rows[i];
    }
  }

  lemma {:induction false} XlsxTextBlank(sheets: seq<Sheet>)
    ensures IsBlank(XlsxText(sheets)) <==> forall s :: 0 <= s < |sheets| ==> BlankSheet(sheets[s])
  {
    if sheets != [] {
      var n := |sheets| - 1;
      XlsxTextBlank(sheets[..n]);
      SheetTextBlank(sheets[n]);
      BlankConcat(XlsxText(sheets[..n]), SheetText(sheets[n]));
      assert forall s :: 0 <= s < n ==> sheets[..n][s] == sheets[s];
    }
  }

  /** A workbook gives no document exactly when, in every sheet, every row has at
      most one cell and that cell renders blank; otherwise one document with the
      stripped text of all sheets. */
  lemma XlsxDocsEmptyIff(path: string, sheets: seq<Sheet>)
    ensures XlsxDocs(path, Some(sheets)) == [] <==> forall s :: 0 <= s < |sheets| ==> BlankSheet(sheets[s])
    ensures XlsxDocs(path, Some(sheets)) != [] ==> XlsxDocs(path, Some(sheets)) == [Doc(Strip(XlsxText(sheets)), path, None)]
  {
    XlsxTextBlank(sheets);
  }

  // ---------------------------------------------------------------- dispatch

  /** What parse_file returns for the file at path. */
  function Parse(path: string, raw: RawFile): seq<Doc>
  {
    Extract(FormatOf(path), path, raw)
  }

  /** The extractor for one format. */
  function Extract(format: Format, path: string, raw: RawFile): seq<Doc>
  {
    match format
    case Pdf => PdfDocs(path, raw.asPdf.pages)
    case Docx => DocxDocs(path, raw.asDocx)
    case Xlsx => XlsxDocs(path, raw.asXlsx)
    case Csv => CsvDocs(path, raw.asCsv)
    case PlainText => StrippedDocs(path, raw.asText)
    case Image => StrippedDocs(path, raw.asImage)
    case Unsupported => []
  }

  /** parse_file: never raises; every extractor catches its own failure. */
  method ParseFile(path: string, raw: RawFile) returns (docs: seq<Doc>)
    ensures docs == Parse(path, raw)
  {
    var format := FormatOf(path);
    match format {
      case Pdf => docs := ExtractPdf(path, raw.asPdf);
      case Docx => docs := DocxDocs(path, raw.asDocx);
      case Xlsx => docs := ExtractXlsx(path, raw.asXlsx);
      case Csv => docs := ExtractCsv(path, raw.asCsv);
      case PlainText => docs := StrippedDocs(path, raw.asText);
      case Image => docs := StrippedDocs(path, raw.asImage);
      case Unsupported => docs := [];
    }
  }

  /** Whatever the format: every document names the path as its source and has
      non-blank content; an unsupported extension gives none. */
  lemma ExtractSound(format: Format, path: string, raw: RawFile)
    ensures forall d :: d in Extract(format, path, raw) ==> d.source == path && !IsBlank(d.content)
    ensures format == Unsupported ==> Extract(format, path, raw) == []
  {
    if format == Pdf {
      PdfDocsSound(path, raw.asPdf.pages);
    }
  }

  /** Only PDF gives more than one document or a page number. */
  lemma ExtractSingle(format: Format, path: string, raw: RawFile)
    requires format != Pdf
    ensures |Extract(format, path, raw)| <= 1
    ensures forall d :: d in Extract(format, path, raw) ==> d.page.None?
  {
  }

  /** parse_file's documents name the path as their source and are never blank;
      an extension outside the supported list gives none. */
  lemma ParseSound(path: string, raw: RawFile)
    ensures forall d :: d in Parse(path, raw) ==> d.source == path && !IsBlank(d.content)
    ensures Lower(Ext(path)) !in SupportedExtensions ==> Parse(path, raw) == []
  {
    ExtractSound(FormatOf(path), path, raw);
  }
}

=== FILE: global_loader.dfy ===
/** Bootstrap of the global index (global_loader.py): rebuild it from DOCS2PARSE
    only when the vectorstore directory is missing or empty, otherwise open it. */
module GlobalLoader {
  import opened Results
  import opened Text
  import opened FileUtils
  import opened Storage

  const DocsDirName := "DOCS2PARSE"
  const PersistDirectory := "vectorstore"

  /** The path parse_file is given for a listed name. */
  function DocPath(name: string): string
  {
    PathJoin(DocsDirName, name)
  }

  /** What parse_file returns for each listed file, in listing order. */
  function ParsedFiles(files: seq<(string, RawFile)>): (parts: seq<seq<Doc>>)
    ensures |parts| == |files|
    ensures forall i :: 0 <= i < |files| ==> parts[i] == Parse(DocPath(files[i].0), files[i].1)
  {
    seq(|files|, i requires 0 <= i < |files| => Parse(DocPath(files[i].0), files[i].1))
  }

  /** The lists one after the other. */
  function Concat(parts: seq<seq<Doc>>): seq<Doc>
  {
    if parts == [] then [] else Concat(parts[..|parts| - 1]) + parts[|parts| - 1]
  }

  /** The documents of the listed files, file after file, each file's in its own order. */
  function Collected(files: seq<(string, RawFile)>): seq<Doc>
  {
    Concat(ParsedFiles(files))
  }

  /** The loop over all_files: parsed documents extend the list; a file that parses
      to nothing is skipped. parse_file catches every extractor failure, so the
      loop's own exception handler is never reached here. */
  method CollectDocuments(files: seq<(string, RawFile)>) returns (documents: seq<Doc>)
    ensures documents == Collected(files)
  {
    documents := [];
    var i := 0;
    while i < |files|
      invariant 0 <= i <= |files|
      invariant documents == Collected(files[..i])
    {
      var parsed := ParseFile(DocPath(files[i].0), files[i].1);
      CollectedStep(files, i);
      if parsed != [] {
        documents := documents + parsed;
      }
      i := i + 1;
    }
    assert files[..i] == files;
  }

  lemma ConcatLast(parts: seq<seq<Doc>>, last: seq<Doc>)
    ensures Concat(parts + [last]) == Concat(parts) + last
  {
    assert (parts + [last])[..|parts|] == parts;
  }

  /** One listed file gives its own documents. */
  lemma CollectedSingle(f: (string, RawFile))
    ensures Collected([f]) == Parse(DocPath(f.0), f.1)
  {
    assert ParsedFiles([f]) == [] + [Parse(DocPath(f.0), f.1)];
    ConcatLast([], Parse(DocPath(f.0), f.1));
  }

  /** One more listed file adds its documents at the end. */
  lemma CollectedStep(files: seq<(string, RawFile)>, i: nat)
    requires i < |files|
    ensures Collected(files[..i + 1]) == Collected(files[..i]) + Parse(DocPath(files[i].0), files[i].1)
  {
    assert files[..i + 1] == files[..i] + [files[i]];
    CollectedAppend(files[..i], [files[i]]);
    CollectedSingle(files[i]);
  }

  lemma {:induction false} ConcatAppend(a: seq<seq<Doc>>, b: seq<seq<Doc>>)
    ensures Concat(a + b) == Concat(a) + Concat(b)
  {
    if b != [] {
      var n := |b| - 1;
      assert a + b == (a + b[..n]) + [b[n]];
      assert b == b[..n] + [b[n]];
      ConcatLast(a + b[..n], b[n]);
      ConcatLast(b[..n], b[n]);
      ConcatAppend(a, b[..n]);
    } else {
      assert a + b == a;
    }
  }

  /** A document of the concatenation comes from one of the lists. */
  lemma {:induction false} ConcatMember(parts: seq<seq<Doc>>, d: Doc)
    requires d in Concat(parts)
    ensures exists i :: 0 <= i < |parts| && d in parts[i]
  {
    var n := |parts| - 1;
    if d !in parts[n] {
      ConcatMember(parts[..n], d);
      var i :| 0 <= i < n && d in parts[..n][i];
      assert parts[..n][i] == parts[i];
    }
  }

  /** Collecting two listings one after the other is collecting their concatenation. */
  lemma CollectedAppend(a: seq<(string, RawFile)>, b: seq<(string, RawFile)>)
    ensures Collected(a + b) == Collected(a) + Collected(b)
  {
    forall k | 0 <= k < |a + b|
      ensures ParsedFiles(a + b)[k] == (ParsedFiles(a) + ParsedFiles(b))[k]
    {
      if k < |a| {
        assert (a + b)[k] == a[k];
      } else {
        assert (a + b)[k] == b[k - |a|];
      }
    }
    assert ParsedFiles(a + b) == ParsedFiles(a) + ParsedFiles(b);
    ConcatAppend(ParsedFiles(a), ParsedFiles(b));
  }

  /** A file that parses to no documents contributes nothing, wherever it is listed. */
  lemma SkippedFileContributesNothing(a: seq<(string, RawFile)>, f: (string, RawFile), b: seq<(string, RawFile)>)
    requires Parse(DocPath(f.0), f.1) == []
    ensures Collected(a + [f] + b) == Collected(a + b)
  {
    assert Collected(a + [f]) == Collected(a) by {
      CollectedAppend(a, [f]);
      CollectedSingle(f);
      assert Collected(a) + [] == Collected(a);
    }
    CollectedAppend(a + [f], b);
    CollectedAppend(a, b);
  }

  /** Every collected document comes from a listed file and is not blank. */
  lemma CollectedSound(files: seq<(string, RawFile)>)
    ensures forall d :: d in Collected(files) ==>
      !IsBlank(d.content) && exists i :: 0 <= i < |files| && d.source == DocPath(files[i].0)
  {
    forall d | d in Collected(files)
      ensures !IsBlank(d.content) && exists i :: 0 <= i < |files| && d.source == DocPath(files[i].0)
    {
      ConcatMember(ParsedFiles(files), d);
      var i :| 0 <= i < |files| && d in ParsedFiles(files)[i];
      ParseSound(DocPath(files[i].0), files[i].1);
    }
  }

  /** The vectorstore directory is missing or empty. */
  predicate NeedsRebuild(fs: Fs)
  {
    fs.vectorRoot.None? || fs.vectorRoot.value.entries == {}
  }

  datatype GlobalLoad = Rebuilt(store: Store) | Reopened | BuildFailed

  /** load_global_vectorstore. written is what Chroma.from_documents leaves in the
      directory, or None when it raises (the exception propagates to the caller). */
  function LoadGlobal(fs: Fs, written: Option<set<string>>): (r: (Fs, GlobalLoad))
  {
    if NeedsRebuild(fs) then
      var store := Store(Collected(fs.docsDir), ChunkSize, ChunkOverlap);
      match written
      case None => (fs, BuildFailed)
      case Some(w) => (fs.(vectorRoot := Some(GlobalDir(w, Some(store)))), Rebuilt(store))
    else (fs, Reopened)
  }

  /** The rebuild happens exactly when the directory is missing or empty; it uses the
      documents of DOCS2PARSE in listing order and the per-user splitter parameters,
      and changes nothing but the vectorstore directory. A needed rebuild succeeds
      exactly when the build does; a failed build leaves the directory as it was.
      An existing store is opened without parsing anything. */
  lemma LoadGlobalSpec(fs: Fs, written: Option<set<string>>)
    ensures LoadGlobal(fs, written).1.Reopened? <==> !NeedsRebuild(fs)
    ensures !NeedsRebuild(fs) ==> LoadGlobal(fs, written).0 == fs
    ensures LoadGlobal(fs, written).1.Rebuilt? ==>
      && LoadGlobal(fs, written).1.store == Store(Collected(fs.docsDir), ChunkSize, ChunkOverlap)
      && LoadGlobal(fs, written).0.vectorRoot == Some(GlobalDir(written.value, Some(LoadGlobal(fs, written).1.store)))
    ensures LoadGlobal(fs, written).0.(vectorRoot := fs.vectorRoot) == fs
    ensures NeedsRebuild(fs) ==> (LoadGlobal(fs, written).1.Rebuilt? <==> written.Some?)
    ensures LoadGlobal(fs, written).1.BuildFailed? <==> NeedsRebuild(fs) && written.None?
    ensures LoadGlobal(fs, written).1.BuildFailed? ==> LoadGlobal(fs, written).0 == fs
  {
  }

  method LoadGlobalVectorstore(d: Disk, written: Option<set<string>>) returns (r: GlobalLoad)
    modifies d
    ensures (d.State(), r) == LoadGlobal(old(d.State()), written)
  {
    if d.vectorRoot.None? || d.vectorRoot.value.entries == {} {
      var documents := CollectDocuments(d.docsDir);
      var store := Store(documents, ChunkSize, ChunkOverlap);
      if written.None? {
        return BuildFailed;
      }
      d.vectorRoot := Some(GlobalDir(written.value, Some(store)));
      r := Rebuilt(store);
    } else {
      r := Reopened;
    }
  }
}

=== FILE: session_handler.dfy ===
/** The per-user ingestion pipeline (session_handler.py): save the upload, guard the
    quota, drop the user's index, rebuild it from the new file alone, upsert meta.json;
    and the choice between the user's index and the global one. */
module SessionHandler {
  import opened Results
  import opened Text
  import opened FileUtils
  import opened Storage
  import opened GlobalLoader

  const BaseSessionsDir := "session_uploads"
  const ChromaBaseDir := "chroma_sessions"
  const MetaName := "meta.json"
  const MaxVectorBytes: nat := 100 * 1024 * 1024
  const QuotaMessage := "Your vector storage (100MB) is full. Please clear memory before uploading more files."
  const DefaultTitle := "Untitled Chat"

  // ---------------------------------------------------------------- quota

  /** The sizes of the regular files among the given ones. */
  function FilesSize(files: seq<DiskFile>): nat
  {
    if files == [] then 0
    else
      var f := files[|files| - 1];
      FilesSize(files[..|files| - 1]) + (if f.regular then f.size else 0)
  }

  /** The sizes of the regular files of every directory os.walk visits. */
  function WalkSize(walk: seq<seq<DiskFile>>): nat
  {
    if walk == [] then 0 else WalkSize(walk[..|walk| - 1]) + FilesSize(walk[|walk| - 1])
  }

  function Walk(t: Tree): seq<seq<DiskFile>>
  {
    [t.rootFiles] + t.subdirs
  }

  /** get_vectorstore_size: what the user's index directory holds, 0 without one. */
  function VectorStoreSize(fs: Fs, email: string): nat
  {
    if email in fs.indexes then WalkSize(Walk(fs.indexes[email].tree)) else 0
  }

  lemma FilesSizeStep(files: seq<DiskFile>, j: nat)
    requires j < |files|
    ensures FilesSize(files[..j + 1]) == FilesSize(files[..j]) + (if files[j].regular then files[j].size else 0)
  {
    assert files[..j + 1][..j] == files[..j];
  }

  lemma WalkSizeStep(walk: seq<seq<DiskFile>>, k: nat)
    requires k < |walk|
    ensures WalkSize(walk[..k + 1]) == WalkSize(walk[..k]) + FilesSize(walk[k])
  {
    assert walk[..k + 1][..k] == walk[..k];
  }

  /** The inner loop of get_vectorstore_size: the regular files of one directory
      added to the running total. */
  method AddFilesSize(total: nat, files: seq<DiskFile>) returns (t: nat)
    ensures t == total + FilesSize(files)
  {
    t := total;
    var j := 0;
    while j < |files|
      invariant 0 <= j <= |files|
      invariant t == total + FilesSize(files[..j])
    {
      FilesSizeStep(files, j);
      if files[j].regular {
        t := t + files[j].size;
      }
      j := j + 1;
    }
    assert files[..j] == files;
  }

  /** get_vectorstore_size, walking chroma_sessions/<email>. */
  method GetVectorstoreSize(d: Disk, email: string) returns (total: nat)
    ensures total == VectorStoreSize(d.State(), email)
  {
    var walk := if email in d.indexes then Walk(d.indexes[email].tree) else [];
    total := 0;
    var k := 0;
    while k < |walk|
      invariant 0 <= k <= |walk|
      invariant total == WalkSize(walk[..k])
    {
      total := AddFilesSize(total, walk[k]);
      WalkSizeStep(walk, k);
      k := k + 1;
    }
    assert walk[..k] == walk;
  }

  /** Regular files add up; others (os.path.isfile false) count nothing. */
  lemma {:induction false} FilesSizeAppend(a: seq<DiskFile>, b: seq<DiskFile>)
    ensures FilesSize(a + b) == FilesSize(a) + FilesSize(b)
  {
    if b != [] {
      assert (a + b)[..|a + b| - 1] == a + b[..|b| - 1];
      FilesSizeAppend(a, b[..|b| - 1]);
    } else {
      assert a + b == a;
    }
  }

  /** A regular file's size is part of the total of its directory. */
  lemma {:induction false} FileCounted(files: seq<DiskFile>, i: nat)
    requires i < |files| && files[i].regular
    ensures files[i].size <= FilesSize(files)
  {
    FilesSizeAppend(files[..i], files[i..]);
    assert files == files[..i] + files[i..];
    assert files[i..] == [files[i]] + files[i + 1..];
    FilesSizeAppend([files[i]], files[i + 1..]);
    assert [files[i]][..0] == [];
  }

  // ---------------------------------------------------------------- meta.json

  function DefaultMeta(): Meta
  {
    Meta([], None, DefaultTitle)
  }

  /** The upsert of meta.json: the file name is appended when absent, last_used is set. */
  function UpsertMeta(m: Meta, filename: string, now: string): (r: Meta)
    ensures r.title == m.title && r.lastUsed == Some(now)
    ensures filename in r.files
    ensures forall f :: f in r.files <==> f in m.files || f == filename
    ensures filename in m.files ==> r.files == m.files
    ensures filename !in m.files ==> r.files == m.files + [filename]
    ensures |m.files| <= |r.files| <= |m.files| + 1 && r.files[..|m.files|] == m.files
  {
    var files := if filename in m.files then m.files else m.files + [filename];
    m.(files := files, lastUsed := Some(now))
  }

  predicate NoDuplicates(xs: seq<string>)
  {
    forall i, j :: 0 <= i < j < |xs| ==> xs[i] != xs[j]
  }

  /** Upserting keeps a list without duplicates free of them. */
  lemma UpsertMetaNoDuplicates(m: Meta, filename: string, now: string)
    requires NoDuplicates(m.files)
    ensures NoDuplicates(UpsertMeta(m, filename, now).files)
  {
  }

  /** The meta record an upload writes: from meta.json when it reads as one, the
      defaults when there is none; None when json.load or the update raises, and
      then nothing is written. */
  function NewMeta(dir: Dir, filename: string, now: string): Option<Meta>
  {
    if MetaName !in dir then Some(UpsertMeta(DefaultMeta(), filename, now))
    else match dir[MetaName]
      case MetaFile(m) => Some(UpsertMeta(m, filename, now))
      case _ => None
  }

  function WriteMeta(fs: Fs, email: string, filename: string, now: string): (r: Fs)
    requires email in fs.uploads
    ensures r.uploads.Keys == fs.uploads.Keys
    ensures fs.uploads[email].Keys <= r.uploads[email].Keys <= fs.uploads[email].Keys + {MetaName}
    ensures forall u :: u in fs.uploads && u != email ==> r.uploads[u] == fs.uploads[u]
    ensures forall n :: n in fs.uploads[email] && n != MetaName ==> r.uploads[email][n] == fs.uploads[email][n]
    ensures r.uploadsRoot == fs.uploadsRoot && r.indexes == fs.indexes
    ensures r.vectorRoot == fs.vectorRoot && r.docsDir == fs.docsDir
    ensures MetaName in fs.uploads[email] && !fs.uploads[email][MetaName].MetaFile? ==> r == fs
    ensures MetaName !in fs.uploads[email] ==>
      MetaName in r.uploads[email] && r.uploads[email][MetaName] == MetaFile(UpsertMeta(DefaultMeta(), filename, now))
    ensures MetaName in fs.uploads[email] && fs.uploads[email][MetaName].MetaFile? ==>
      MetaName in r.uploads[email]
      && r.uploads[email][MetaName] == MetaFile(UpsertMeta(fs.uploads[email][MetaName].meta, filename, now))
  {
    match NewMeta(fs.uploads[email], filename, now)
    case None => fs
    case Some(m) => PutBlob(fs, email, MetaName, MetaFile(m))
  }

  // ---------------------------------------------------------------- upload

  datatype UploadError = QuotaExceeded(message: string) | SaveFailed

  function UploadPath(email: string, filename: string): string
  {
    PathJoin(PathJoin(BaseSessionsDir, email), filename)
  }

  /** handle_file_upload. saved: the raw file could be written; built: what
      Chroma.from_documents leaves in the index directory, None when parsing,
      splitting or building raised; now: datetime.utcnow().isoformat(). */
  function Upload(fs: Fs, email: string, filename: string, raw: RawFile, saved: bool,
                  built: Option<Tree>, now: string): (r: (Fs, Result<(string, string), UploadError>))
  {
    var s1 := EnsureDir(fs, email);
    if !saved then (s1, Err(SaveFailed))
    else
      var s2 := PutBlob(s1, email, filename, RawUpload(raw));
      if VectorStoreSize(s2, email) >= MaxVectorBytes then (s2, Err(QuotaExceeded(QuotaMessage)))
      else
        var docs := Parse(UploadPath(email, filename), raw);
        (WriteMeta(ReplaceIndex(s2, email, docs, built), email, filename, now), Ok((email, filename)))
  }

  /** shutil.rmtree of the user's index, then the index Chroma builds from docs, if any. */
  function ReplaceIndex(fs: Fs, email: string, docs: seq<Doc>, built: Option<Tree>): (r: Fs)
    ensures r.uploadsRoot == fs.uploadsRoot && r.uploads == fs.uploads
    ensures r.vectorRoot == fs.vectorRoot && r.docsDir == fs.docsDir
    ensures email in r.indexes <==> built.Some?
    ensures built.Some? ==> r.indexes[email] == IndexDir(built.value, Store(docs, ChunkSize, ChunkOverlap))
    ensures forall u :: u != email ==> (u in r.indexes <==> u in fs.indexes)
    ensures forall u :: u != email && u in fs.indexes ==> r.indexes[u] == fs.indexes[u]
  {
    var cleared := fs.indexes - {email};
    fs.(indexes := if built.Some? then cleared[email := IndexDir(built.value, Store(docs, ChunkSize, ChunkOverlap))]
                   else cleared)
  }

  /** The steps a successful upload takes, once the file is saved and the guard passed. */
  lemma UploadSucceeds(fs: Fs, email: string, filename: string, raw: RawFile,
                       built: Option<Tree>, now: string)
    requires VectorStoreSize(fs, email) < MaxVectorBytes
    ensures email in ReplaceIndex(PutBlob(EnsureDir(fs, email), email, filename, RawUpload(raw)),
                                  email, Parse(UploadPath(email, filename), raw), built).uploads
    ensures Upload(fs, email, filename, raw, true, built, now)
      == (WriteMeta(ReplaceIndex(PutBlob(EnsureDir(fs, email), email, filename, RawUpload(raw)),
                                 email, Parse(UploadPath(email, filename), raw), built),
                    email, filename, now),
          Ok((email, filename)))
  {
    var s2 := PutBlob(EnsureDir(fs, email), email, filename, RawUpload(raw));
    assert VectorStoreSize(s2, email) == VectorStoreSize(fs, email);
  }

  /** The guard: an upload is refused exactly when the file was saved and the user's
      index already holds 100 MiB or more. Then the raw file stays on disk and the
      index is untouched. Writing the file is the only other failure. */
  lemma UploadQuotaGuard(fs: Fs, email: string, filename: string, raw: RawFile, saved: bool,
                         built: Option<Tree>, now: string)
    ensures Upload(fs, email, filename, raw, saved, built, now).1 == Err(QuotaExceeded(QuotaMessage))
            <==> saved && VectorStoreSize(fs, email) >= MaxVectorBytes
    ensures Upload(fs, email, filename, raw, saved, built, now).1 == Err(SaveFailed) <==> !saved
    ensures Upload(fs, email, filename, raw, saved, built, now).1.Err? ==>
      && Upload(fs, email, filename, raw, saved, built, now).0.indexes == fs.indexes
      && Upload(fs, email, filename, raw, saved, built, now).0.vectorRoot == fs.vectorRoot
    ensures Upload(fs, email, filename, raw, saved, built, now).1 == Err(QuotaExceeded(QuotaMessage)) ==>
      Upload(fs, email, filename, raw, saved, built, now).0.uploads[email][filename] == RawUpload(raw)
  {
    if saved {
      var s2 := PutBlob(EnsureDir(fs, email), email, filename, RawUpload(raw));
      assert VectorStoreSize(s2, email) == VectorStoreSize(fs, email);
    }
  }

  /** After the guard passes, the old index is gone and the new one, when built,
      holds only the documents of the file just uploaded; other users' indexes
      are untouched and the result is (email, filename). */
  lemma UploadRebuildsFromNewFileOnly(fs: Fs, email: string, filename: string, raw: RawFile,
                                       built: Option<Tree>, now: string)
    requires VectorStoreSize(fs, email) < MaxVectorBytes
    ensures Upload(fs, email, filename, raw, true, built, now).1 == Ok((email, filename))
    ensures email in Upload(fs, email, filename, raw, true, built, now).0.indexes <==> built.Some?
    ensures built.Some? ==>
      Upload(fs, email, filename, raw, true, built, now).0.indexes[email]
      == IndexDir(built.value, Store(Parse(UploadPath(email, filename), raw), ChunkSize, ChunkOverlap))
    ensures forall u :: u != email ==>
      (u in Upload(fs, email, filename, raw, true, built, now).0.indexes <==> u in fs.indexes)
    ensures forall u :: u != email && u in fs.indexes ==>
      Upload(fs, email, filename, raw, true, built, now).0.indexes[u] == fs.indexes[u]
    ensures filename != MetaName ==>
      && email in Upload(fs, email, filename, raw, true, built, now).0.uploads
      && filename in Upload(fs, email, filename, raw, true, built, now).0.uploads[email]
      && Upload(fs, email, filename, raw, true, built, now).0.uploads[email][filename] == RawUpload(raw)
  {
    UploadSucceeds(fs, email, filename, raw, built, now);
  }

  /** meta.json after a successful upload, when it was absent or readable: the
      upsert of the record that was there (or of the defaults). By UpsertMeta and
      UpsertMetaNoDuplicates, the name is then listed once, the earlier names keep
      their order, the title is kept and last_used is the upload time. */
  lemma UploadMeta(fs: Fs, email: string, filename: string, raw: RawFile,
                   built: Option<Tree>, now: string, before: Meta)
    requires filename != MetaName
    requires VectorStoreSize(fs, email) < MaxVectorBytes
    requires if email in fs.uploads && MetaName in fs.uploads[email]
             then fs.uploads[email][MetaName] == MetaFile(before)
             else before == DefaultMeta()
    ensures email in Upload(fs, email, filename, raw, true, built, now).0.uploads
    ensures MetaName in Upload(fs, email, filename, raw, true, built, now).0.uploads[email]
    ensures Upload(fs, email, filename, raw, true, built, now).0.uploads[email][MetaName]
            == MetaFile(UpsertMeta(before, filename, now))
  {
    UploadSucceeds(fs, email, filename, raw, built, now);
    var s3 := ReplaceIndex(PutBlob(EnsureDir(fs, email), email, filename, RawUpload(raw)),
                           email, Parse(UploadPath(email, filename), raw), built);
    assert MetaName in s3.uploads[email] <==> email in fs.uploads && MetaName in fs.uploads[email];
    assert NewMeta(s3.uploads[email], filename, now) == Some(UpsertMeta(before, filename, now));
  }

  method HandleFileUpload(d: Disk, email: string, filename: string, raw: RawFile, saved: bool,
                          built: Option<Tree>, now: string)
      returns (r: Result<(string, string), UploadError>)
    modifies d
    ensures (d.State(), r) == Upload(old(d.State()), email, filename, raw, saved, built, now)
  {
    d.MakeUserDir(email);
    if !saved {
      return Err(SaveFailed);
    }
    d.WriteFile(email, filename, RawUpload(raw));
    ghost var saved2 := d.State();

    var size := GetVectorstoreSize(d, email);
    if size >= MaxVectorBytes {
      return Err(QuotaExceeded(QuotaMessage));
    }

    // shutil.rmtree when the directory exists; removing an absent key changes nothing
    d.indexes := d.indexes - {email};
    var documents := ParseFile(UploadPath(email, filename), raw);
    if built.Some? {
      d.indexes := d.indexes[email := IndexDir(built.value, Store(documents, ChunkSize, ChunkOverlap))];
    }
    assert d.State() == ReplaceIndex(saved2, email, documents, built);
    UpdateMeta(d, email, filename, now);
    r := Ok((email, filename));
  }

  /** The meta.json step of handle_file_upload; its failures are logged, not raised. */
  method UpdateMeta(d: Disk, email: string, filename: string, now: string)
    requires email in d.uploads
    modifies d
    ensures d.State() == WriteMeta(old(d.State()), email, filename, now)
  {
    var meta := DefaultMeta();
    if MetaName in d.uploads[email] {
      match d.uploads[email][MetaName] {
        case MetaFile(m) => meta := m;
        case _ => return;
      }
    }
    if filename !in meta.files {
      meta := meta.(files := meta.files + [filename]);
    }
    meta := meta.(lastUsed := Some(now));
    d.WriteFile(email, MetaName, MetaFile(meta));
  }

  // ---------------------------------------------------------------- store choice

  datatype StoreChoice = UserStore | GlobalStore

  /** load_or_create_session_vectorstore's decision. opens: opening the user's
      Chroma directory succeeds. */
  function ChooseStore(fs: Fs, email: string, opens: bool): StoreChoice
  {
    if email in fs.uploads && |fs.uploads[email]| > 0
       && email in fs.indexes && Listed(fs.indexes[email].tree) && opens
    then UserStore else GlobalStore
  }

  /** The user's own index is used only when the upload directory and the index
      directory both exist and are non-empty and the index opens; in every other
      case the global store is used. */
  lemma ChooseStoreSpec(fs: Fs, email: string, opens: bool)
    ensures ChooseStore(fs, email, opens) == UserStore <==>
      && email in fs.uploads && fs.uploads[email] != map[]
      && email in fs.indexes && Listed(fs.indexes[email].tree) && opens
  {
    if email in fs.uploads && fs.uploads[email] != map[] {
      var k :| k in fs.uploads[email];
      assert k in fs.uploads[email].Keys;
    }
  }

  /** Which store a query goes to, and what the global loader did when it was consulted. */
  function LoadOrCreate(fs: Fs, email: string, opens: bool, written: Option<set<string>>): (Fs, StoreChoice, Option<GlobalLoad>)
  {
    if ChooseStore(fs, email, opens) == UserStore then (fs, UserStore, None)
    else
      var (after, load) := LoadGlobal(fs, written);
      (after, GlobalStore, Some(load))
  }

  /** load_or_create_session_vectorstore */
  method LoadOrCreateSessionVectorstore(d: Disk, email: string, opens: bool, written: Option<set<string>>)
      returns (choice: StoreChoice, load: Option<GlobalLoad>)
    modifies d
    ensures (d.State(), choice, load) == LoadOrCreate(old(d.State()), email, opens, written)
  {
    if email in d.uploads && |d.uploads[email]| > 0 {
      if email in d.indexes && Listed(d.indexes[email].tree) {
        if opens {
          return UserStore, None;
        }
      }
    }
    var l := LoadGlobalVectorstore(d, written);
    choice, load := GlobalStore, Some(l);
  }
}

=== FILE: storage.dfy ===
/** The part of the filesystem the backend reads and writes:
      session_uploads/<email>/...   raw uploads, chat_history.json, meta.json
      chroma_sessions/<email>/      the per-user Chroma index
      vectorstore/                  the global Chroma index
      DOCS2PARSE/                   the documents of the global knowledge base
    The class Disk holds it and is changed in place by the operations of the other
    modules; Fs is its value, used to state what each operation does. */
module Storage {
  import opened Results
  import opened FileUtils

  /** The splitter parameters, the same for the per-user and the global index. */
  const ChunkSize: nat := 800
  const ChunkOverlap: nat := 200

  /** What a Chroma index was built from: these documents, split with these parameters. */
  datatype Store = Store(docs: seq<Doc>, chunkSize: nat, chunkOverlap: nat)

  /** A directory entry os.walk lists as a file; regular is os.path.isfile. */
  datatype DiskFile = DiskFile(size: nat, regular: bool)

  /** A directory tree as os.walk visits it: the files in the root, then the files
      of every subdirectory in walk order. */
  datatype Tree = Tree(rootFiles: seq<DiskFile>, subdirs: seq<seq<DiskFile>>)

  /** os.listdir of the tree's root is not empty. */
  predicate Listed(t: Tree)
  {
    |t.rootFiles| > 0 || |t.subdirs| > 0
  }

  /** A per-user index directory: its files, and what Chroma built into it. */
  datatype IndexDir = IndexDir(tree: Tree, origin: Store)

  /** A chat history entry's message: a string, or the whole output of the
      global RetrievalQA chain (a dict holding the query and the result). */
  datatype Body = Plain(s: string) | QaOutput(query: string, result: string)

  datatype Message = Message(sender: string, body: Body)

  /** meta.json */
  datatype Meta = Meta(files: seq<string>, lastUsed: Option<string>, title: string)

  /** A file in a user's upload directory, by what json.load makes of it:
      an uploaded file (not a history list nor a meta object), a history, a meta record. */
  datatype Blob = RawUpload(raw: RawFile) | HistoryFile(entries: seq<Message>) | MetaFile(meta: Meta)

  type Dir = map<string, Blob>

  /** The global index directory: the names in it (user names among them, when a
      user directory was created there), and what it was built from when known. */
  datatype GlobalDir = GlobalDir(entries: set<string>, origin: Option<Store>)

  datatype Fs = Fs(
    uploadsRoot: bool,                  // session_uploads exists
    uploads: map<string, Dir>,          // session_uploads/<email>
    indexes: map<string, IndexDir>,     // chroma_sessions/<email>
    vectorRoot: Option<GlobalDir>,      // vectorstore
    docsDir: seq<(string, RawFile)>)    // DOCS2PARSE, in listing order

  /** Create session_uploads/<email>, and its parent, unless they already exist. */
  function EnsureDir(fs: Fs, email: string): (r: Fs)
    ensures r.uploadsRoot && email in r.uploads
    ensures r.uploads.Keys == fs.uploads.Keys + {email}
    ensures forall u :: u in fs.uploads ==> r.uploads[u] == fs.uploads[u]
    ensures email !in fs.uploads ==> r.uploads[email] == map[]
    ensures r.indexes == fs.indexes && r.vectorRoot == fs.vectorRoot && r.docsDir == fs.docsDir
  {
    fs.(uploadsRoot := true,
        uploads := if email in fs.uploads then fs.uploads else fs.uploads[email := map[]])
  }

  /** Writes session_uploads/<email>/<name>, replacing what was there. */
  function PutBlob(fs: Fs, email: string, name: string, b: Blob): (r: Fs)
    requires email in fs.uploads
    ensures r.uploads.Keys == fs.uploads.Keys && r.uploads[email] == fs.uploads[email][name := b]
    ensures forall u :: u in fs.uploads && u != email ==> r.uploads[u] == fs.uploads[u]
    ensures r.uploadsRoot == fs.uploadsRoot && r.indexes == fs.indexes
    ensures r.vectorRoot == fs.vectorRoot && r.docsDir == fs.docsDir
  {
    fs.(uploads := fs.uploads[email := fs.uploads[email][name := b]])
  }

  class Disk {
    var uploadsRoot: bool
    var uploads: map<string, Dir>
    var indexes: map<string, IndexDir>
    var vectorRoot: Option<GlobalDir>
    var docsDir: seq<(string, RawFile)>

    constructor (fs: Fs)
      ensures State() == fs
    {
      uploadsRoot := fs.uploadsRoot;
      uploads := fs.uploads;
      indexes := fs.indexes;
      vectorRoot := fs.vectorRoot;
      docsDir := fs.docsDir;
    }

    ghost function State(): Fs
      reads this
    {
      Fs(uploadsRoot, uploads, indexes, vectorRoot, docsDir)
    }

    method MakeUserDir(email: string)
      modifies this
      ensures State() == EnsureDir(old(State()), email)
    {
      uploadsRoot := true;
      if email !in uploads {
        uploads := uploads[email := map[]];
      }
    }

    method WriteFile(email: string, name: string, b: Blob)
      requires email in uploads
      modifies this
      ensures State() == PutBlob(old(State()), email, name, b)
    {
      uploads := uploads[email := uploads[email][name := b]];
    }
  }
}

=== FILE: text.dfy ===
/** Option and Result, the explicit forms of the source's None returns and exceptions. */
module Results {

  datatype Option<+T> = None | Some(value: T)

  datatype Result<+T, +E> = Ok(value: T) | Err(error: E)
}

/** The string operations the backend relies on: Python's str.strip, str.join,
    str.lower, str.startswith/endswith and os.path.join. */
module Text {

  /** Python's str.isspace: the characters str.strip removes. */
  predicate IsSpace(c: char)
  {
    || c == ' ' || c == '\t' || c == '\n' || c == '\r' || c == '\U{b}' || c == '\U{c}'
    || c == '\U{1c}' || c == '\U{1d}' || c == '\U{1e}' || c == '\U{1f}'
    || c == '\U{85}' || c == '\U{a0}' || c == '\U{1680}'
    || ('\U{2000}' <= c <= '\U{200a}')
    || c == '\U{2028}' || c == '\U{2029}' || c == '\U{202f}' || c == '\U{205f}' || c == '\U{3000}'
  }

  /** Every character is whitespace, so stripping leaves nothing. */
  predicate IsBlank(s: string)
  {
    forall i :: 0 <= i < |s| ==> IsSpace(s[i])
  }

  /** Python's lstrip: the text without its leading whitespace. */
  function TrimStart(s: string): (r: string)
    ensures |r| <= |s| && r == s[|s| - |r|..]
    ensures r == [] || !IsSpace(r[0])
    ensures IsBlank(s[..|s| - |r|])
  {
    if s != [] && IsSpace(s[0]) then
      var t := TrimStart(s[1..]);
      assert s[..|s| - |t|] == [s[0]] + s[1..][..|s| - 1 - |t|];
      t
    else s
  }

  /** Python's rstrip: the text without its trailing whitespace. */
  function TrimEnd(s: string): (r: string)
    ensures |r| <= |s| && r == s[..|r|]
    ensures r == [] || !IsSpace(r[|r| - 1])
    ensures IsBlank(s[|r|..])
  {
    if s != [] && IsSpace(s[|s| - 1]) then
      var t := TrimEnd(s[..|s| - 1]);
      assert s[|t|..] == s[..|s| - 1][|t|..] + [s[|s| - 1]];
      t
    else s
  }

  /** Python's strip: the longest infix with no whitespace at either end. */
  function Strip(s: string): (r: string)
  {
    TrimEnd(TrimStart(s))
  }

  /** The number of whitespace characters str.strip removes from the front. */
  function LeadLen(s: string): (n: nat)
    ensures n <= |s|
  {
    |s| - |TrimStart(s)|
  }

  /** What strip keeps is the infix of s that starts after the leading whitespace. */
  lemma StripIsInfix(s: string)
    ensures LeadLen(s) + |Strip(s)| <= |s|
    ensures Strip(s) == s[LeadLen(s)..LeadLen(s) + |Strip(s)|]
  {
    var t := TrimStart(s);
    var r := TrimEnd(t);
    assert r == t[..|r|];
  }

  /** What strip removes is whitespace, before and after what it keeps. */
  lemma StripRemovesBlank(s: string)
    ensures LeadLen(s) + |Strip(s)| <= |s|
    ensures IsBlank(s[..LeadLen(s)])
    ensures IsBlank(s[LeadLen(s) + |Strip(s)|..])
  {
    var t := TrimStart(s);
    var r := TrimEnd(t);
    assert s[LeadLen(s) + |r|..] == t[|r|..];
  }

  /** What strip keeps is framed by non-whitespace. */
  lemma StripEnds(s: string)
    ensures Strip(s) == [] || (!IsSpace(Strip(s)[0]) && !IsSpace(Strip(s)[|Strip(s)| - 1]))
  {
    var t := TrimStart(s);
    var r := TrimEnd(t);
    if r != [] {
      assert r[0] == t[0];
    }
  }

  /** Testing the stripped text for emptiness tests exactly for a non-blank text. */
  lemma {:induction false} StripEmptyIffBlank(s: string)
    ensures Strip(s) == [] <==> IsBlank(s)
  {
    var t := TrimStart(s);
    if !IsBlank(s) && t != [] {
      TrimEndKeepsLead(t);
    }
  }

  /** rstrip keeps a text that starts with a non-whitespace character non-empty. */
  lemma {:induction false} TrimEndKeepsLead(t: string)
    requires t != [] && !IsSpace(t[0])
    ensures TrimEnd(t) != []
  {
    if IsSpace(t[|t| - 1]) {
      TrimEndKeepsLead(t[..|t| - 1]);
    }
  }

  /** Stripping twice strips nothing more. */
  lemma StripIdempotent(s: string)
    ensures Strip(Strip(s)) == Strip(s)
  {
    StripEnds(s);
  }

  /** Python's str.join: the parts with the separator between each two. */
  function Join(sep: string, xs: seq<string>): string
  {
    if xs == [] then ""
    else if |xs| == 1 then xs[0]
    else xs[0] + sep + Join(sep, xs[1..])
  }

  lemma BlankConcat(a: string, b: string)
    ensures IsBlank(a + b) <==> IsBlank(a) && IsBlank(b)
  {
    assert forall i :: 0 <= i < |b| ==> b[i] == (a + b)[|a| + i];
    assert forall i :: 0 <= i < |a| ==> a[i] == (a + b)[i];
  }

  /** A joined text is blank exactly when every part is blank and, if there are
      two parts or more, the separator is blank too. */
  lemma {:induction false} JoinBlank(sep: string, xs: seq<string>)
    ensures IsBlank(Join(sep, xs))
            <==> (|xs| <= 1 || IsBlank(sep)) && forall i :: 0 <= i < |xs| ==> IsBlank(xs[i])
  {
    if |xs| > 1 {
      JoinBlank(sep, xs[1..]);
      BlankConcat(xs[0], sep);
      BlankConcat(xs[0] + sep, Join(sep, xs[1..]));
      assert forall i :: 1 <= i < |xs| ==> xs[i] == xs[1..][i - 1];
    }
  }

  function LowerChar(c: char): char
  {
    if 'A' <= c <= 'Z' then (c as int + 32) as char else c
  }

  /** Python's lower, on the ASCII letters. */
  function Lower(s: string): (r: string)
    ensures |r| == |s|
    ensures forall i :: 0 <= i < |s| ==> r[i] == LowerChar(s[i])
  {
    if s == [] then [] else [LowerChar(s[0])] + Lower(s[1..])
  }

  predicate StartsWith(s: string, prefix: string)
  {
    |prefix| <= |s| && s[..|prefix|] == prefix
  }

  predicate EndsWith(s: string, suffix: string)
  {
    |suffix| <= |s| && s[|s| - |suffix|..] == suffix
  }

  /** POSIX path joining of two components. */
  function PathJoin(a: string, b: string): (r: string)
    ensures StartsWith(b, "/") ==> r == b
    ensures !StartsWith(b, "/") ==> StartsWith(r, a) && EndsWith(r, b)
    ensures !StartsWith(b, "/") && a != [] && !EndsWith(a, "/") ==> r == a + "/" + b
    ensures !StartsWith(b, "/") && (a == [] || EndsWith(a, "/")) ==> r == a + b
  {
    if StartsWith(b, "/") then b
    else if a == [] || EndsWith(a, "/") then a + b
    else a + "/" + b
  }
}
